=== FILE: README.md ===
# Quiz generator core in Dafny

A model of the two pieces of sequential logic in the PDF-to-quiz application:

- **The browser quiz wizard** (static/script.js). The model has
  - one immutable `Session.State` record: the wizard step, the question list,
    the answer list, the question index, the score, the flashcard index,
    whether a file is chosen, the error line, and a `map<string, string>`
    standing in for `localStorage`;
  - every event handler as a pure transition (`Session.Apply`);
  - the helpers those handlers call, each in its own module:
    - the score recount and the results figures (`Scoring`);
    - the review entries (`Scoring.Review`);
    - the three storage entries and their JSON and decimal encodings
      (`Persistence`, `Json`, `Decimal`);
    - the `MM:SS` clock text (`Timer`);
    - the flashcard CSV export (`Csv`);
    - the page layout of the flashcard PDF (`Pagination`).
- **The server's post-processing of the model's text** (`parse_mcq_text` in
  app.py). The regular expression that cuts the text into question blocks is
  a parameter. It yields the captured groups of each block. The model covers
  everything around it:
  - removing `**`;
  - cleaning the question text (strip, garbage prefix, `Question N:` label,
    strip);
  - the four stripped options;
  - the answer letter as an index, Python's negative indices included;
  - the explanation;
  - which errors skip a block and which end the call.

Proved, among other things:

- **Session invariant.** Every reachable state keeps it: `Session.RunValid`.
  - During a quiz the index names a question.
  - There is one answer slot per question.
  - The running score equals the recount.
  - Storage holds the quiz.
  - On the results and flashcard panels, storage reads back as exactly what
    is on screen.
- **Answers.** An answer once given is final.
- **Navigation.** Next and previous undo each other, and so do the two card
  buttons, wrap-around included.
- **Storage round trips.**
  - `JSON.parse(JSON.stringify(v)) == v`.
  - `parseInt(n.toString(), 10) == n` for an integer `n` below 2^53 in
    absolute value, which covers every score the application writes.
  - A restart is followed by a fresh start.
- **CSV.** The export reads back as one record per question.
- **PDF layout.** A card no taller than a page never runs past the bottom
  margin.
- **Parser.**
  - Every parsed question has four options and an answer among them.
  - A skipped block takes no other block with it.

Two places where the model and the code part ways:

- `initializeApp` does not catch the exception `JSON.parse` throws on a
  corrupt stored entry. `Session.Init` returns `None` then. It also returns
  `None` for stored JSON that is not a question list or an answer list,
  which the code would carry on with (see "## Left out").
- The question cleaning of `parse_mcq_text` removes a leading label with the
  corrected pattern (`Mcq.RemoveLabel`), not with app.py's own one
  (`Mcq.RemoveLabelAsWritten`), which also eats the first letter of a
  question such as "Quorum?" (see "## Findings"). `Mcq.CleanQuestionsAgree`
  states exactly on which questions the two give the same text.

## Model

| member | source | states |
|---|---|---|
| Session.Init | static/script.js:482-497 | start-up fails exactly when the stored entries are not a question list, an answer list and a number; it shows the upload panel, with no quiz, exactly when the three entries are not all there; otherwise it shows the results panel over exactly what storage holds; both start on the first question and card with no file chosen and no error |
| Session.RefusalMessage | static/script.js:120 | the message of an error reply is never empty, and is the server's `error` text whenever that is non-empty |
| Session.Store | static/script.js:269 | writing an answer at index `i` records it there, grows the list only when `i` is past its end, and leaves every other entry as it reads |
| Session.NextCardIndex | static/script.js:180-184 | the next card index names a card: the one after the current card, or the first card when the current card is the last |
| Session.PrevCardIndex | static/script.js:185-189 | the previous card index names a card: the one before the current card, or the last card when the current card is the first |
| Session.StartQuizValid | static/script.js:204-210 | starting a saved, non-empty quiz shows the first question, with one empty slot per question, a zero score that equals the recount, and storage holding the quiz |
| Session.SubmitValid | static/script.js:96-142 | whatever the request returns, submitting the form keeps the session invariant |
| Session.EndQuizValid | static/script.js:294-310 | ending a quiz leaves storage restoring exactly the questions, answers and score on the results panel |
| Session.SelectValid | static/script.js:268-283 | choosing an option keeps the running score equal to the recount |
| Session.ApplyValid | static/script.js:77-191 | every event keeps the session invariant |
| Session.InitValid | static/script.js:482-497 | the state start-up builds satisfies the invariant |
| Session.RunValid | static/script.js:77-191 | every sequence of events keeps the invariant |
| Session.RecountKeepsScore | static/script.js:297-303 | the recount at the end of the quiz equals the running score it replaces |
| Session.NextOnLastQuestionEnds | static/script.js:145-152 | on the last question, next shows the results with the score unchanged, and storage restores the quiz, answers and score |
| Session.NextAndPrevMoves | static/script.js:145-159 | next advances exactly when a question is left and otherwise ends the quiz; previous steps back exactly when not on the first question and otherwise changes nothing |
| Session.QuestionIndexInRange | static/script.js:145-159 | after any event during a quiz that stays in the quiz, the question index names a question |
| Session.PrevUndoesNext | static/script.js:145-159 | next then previous is the identity away from the last question |
| Session.NextUndoesPrev | static/script.js:145-159 | previous then next is the identity away from the first question |
| Session.AnswerIsFinal | static/script.js:248-256 | once a question is answered, no event on the quiz panel changes its answer |
| Session.SelectRecordsAnswer | static/script.js:268-283 | choosing an option on an unanswered question records that option at the current index only and raises the score by one exactly when it is the right answer |
| Session.SelectTwiceIgnored | static/script.js:248-256 | choosing again on an answered question changes nothing |
| Session.PrevAfterNextCard | static/script.js:180-189 | on every valid card index, the previous-card step undoes the next-card step, wrap-around included |
| Session.NextAfterPrevCard | static/script.js:180-189 | on every valid card index, the next-card step undoes the previous-card step, wrap-around included |
| Session.PrevCardUndoesNextCard | static/script.js:180-189 | on the flashcard panel, next card then previous card gives the same state back |
| Session.NextCardUndoesPrevCard | static/script.js:180-189 | on the flashcard panel, previous card then next card gives the same state back |
| Session.NoCardsNoMoves | static/script.js:180-189 | with no questions both card buttons do nothing |
| Session.ViewFlashcardsShowsFirstCard | static/script.js:173-176 | opening the flashcards shows the first card and keeps the quiz and storage |
| Session.ReloadShowsSameResults | static/script.js:482-493 | reloading on the results or flashcard panel reopens exactly the results on screen |
| Session.RestartForgetsStorage | static/script.js:161-171 | a restart clears answers, score and index and shows the upload panel; the next start-up finds nothing saved; the question list stays in memory |
| Session.SubmitWithoutFile | static/script.js:99-102 | submitting without a file only sets the hint message |
| Session.SubmitFailureStays | static/script.js:133-135 | a failed request stays on the form with an `Error: ` message and changes neither the quiz nor storage |
| Session.EmptyQuizStillSaved | static/script.js:122-132 | an empty question list is written to storage before the form reports that no quiz was made |
| Session.SubmitStartsQuiz | static/script.js:122-128 | a non-empty question list starts the quiz on the first question, with every answer missing and a zero score |
| Scoring.FinalScore | static/script.js:297-303 | the recount loop returns the number of correctly answered questions, at most the number of questions |
| Scoring.CountIsCardinality | static/script.js:298-302 | the count is the size of the set of indices whose answer equals the question's answer |
| Scoring.CountAfterAnswer | static/script.js:281-283 | recording an answer at an unanswered index changes the count by one exactly when it is the right answer |
| Scoring.NothingAnsweredCountsZero | static/script.js:206 | with every answer missing the count is zero |
| Scoring.Results | static/script.js:312-317 | nothing is shown for an empty quiz; otherwise the total is the number of questions and correct plus incorrect is the total |
| Scoring.SplitIndices | static/script.js:315-317 | correctly answered and missed questions split the quiz: their counts add up to the number of questions |
| Scoring.ResultsOfRecount | static/script.js:313-317 | with the recounted score, the incorrect figure lies between zero and the total and is the number of missed questions |
| Scoring.Review | static/script.js:341-361 | one entry per question in quiz order with the question's number, text, answer and explanation; a missing or empty answer shows as "Not Answered" and any other answer as given; an entry is marked correct exactly when the shown text is the right answer, which away from the answers "" and "Not Answered" is exactly when the score counts it |
| Scoring.ReviewAgreesWithScore | static/script.js:344-345 | the review marks a question correct exactly when the recount counts it, unless its answer is empty or reads "Not Answered" |
| Scoring.ReviewDisagreesOnNotAnsweredOption | static/script.js:344-345 | an unanswered question whose right option reads "Not Answered" is marked correct in the review but not counted |
| Persistence.SaveQuizData | static/script.js:124 | writing the question list adds its entry and changes no other entry |
| Persistence.SavedQuizDataReadsBack | static/script.js:124 | the written question list reads back as the list written |
| Persistence.SaveResults | static/script.js:305-306 | writing the results adds the answers and score entries and changes no other entry |
| Persistence.SavedResultsReadBack | static/script.js:305-306 | the written answers and score read back as written, holes as missing answers |
| Persistence.Clear | static/script.js:162-164 | a restart removes exactly the three entries |
| Persistence.Load | static/script.js:483-490 | nothing is found exactly when one of the two JSON entries is missing or empty or the score entry is missing; when all three entries decode, the quiz is restored, and what is restored is what the entries decode to (other stored shapes are unreadable) |
| Persistence.LoadAfterClear | static/script.js:161-164 | after the three removals start-up finds nothing |
| Persistence.LoadAfterResults | static/script.js:305-306 | writing the results over a stored quiz makes start-up restore that quiz with those answers and that score |
| Persistence.LoadAfterSave | static/script.js:483-490 | a stored quiz with its stored results is restored exactly |
| Persistence.EmptyTextIsNoQuizData | static/script.js:487 | empty text never decodes as a question list |
| Persistence.QuizDataRoundTrip | static/script.js:124 | the JSON text of a question list decodes to the same list, an absent explanation included |
| Persistence.AnswersTextRoundTrip | static/script.js:305 | the JSON text of an answer list decodes to the same list, holes written as `null` and read as missing |
| Persistence.Lookup | static/script.js:488 | a key is found exactly when some member carries it |
| Json.ParseOfSerialize | static/script.js:124 | `JSON.parse` of what `JSON.stringify` writes gives the value back |
| Json.ReadQuoted | static/script.js:124 | a written string literal reads back as the original text, whatever follows it |
| Decimal.NatToString | static/script.js:306 | the decimal text of a natural number is canonical digits whose value is the number |
| Decimal.ParseIntOfToString | static/script.js:490 | `parseInt` of an integer's `toString` gives the integer back, negative ones included, for integers below 2^53 in absolute value |
| Decimal.ParseInt | static/script.js:490 | `parseInt` fails exactly when no digit follows the leading white space and optional sign |
| Decimal.PadKeepsValue | static/script.js:368-369 | zero-padding to two digits keeps the digits and their value |
| Decimal.TwoDigitsBelowHundred | static/script.js:368 | a number's decimal text has at most two digits exactly when it is below one hundred |
| Timer.FormatClock | static/script.js:366-370 | the clock text is digits, a colon and two digits; the seconds field is below sixty; the text reads as the elapsed seconds; it is five characters exactly below 100 minutes; it starts with a zero exactly below 10 minutes, so the minutes field is never padded beyond two digits |
| Timer.ClockInjective | static/script.js:368-370 | two different elapsed times never show the same text |
| Timer.ClockStartsAtZero | static/script.js:365 | zero seconds shows `00:00`, the text the clock starts from |
| Csv.EscapeQuotes | static/script.js:403-405 | doubling the quotes lengthens the text by its number of quotes |
| Csv.UnescapeEscape | static/script.js:403-405 | un-doubling the quotes of a field's interior gives the original text |
| Csv.CsvText | static/script.js:399-400 | the export starts with the header line, and is only the header for no questions |
| Csv.Records | static/script.js:402-407 | one record per question, in order, each holding its question, answer and explanation |
| Csv.ReadRowOf | static/script.js:403-406 | one exported line reads back as the question, answer and explanation (empty when absent) |
| Csv.DecodeCsvText | static/script.js:399-407 | reading the export back gives exactly one record per question, in order |
| Pagination.Place | static/script.js:445-453 | a card either fits above the bottom margin where it is or starts the next page at the top margin; it starts a new page exactly when its block would pass the bottom margin at the current `y`, and otherwise stays at that `y` |
| Pagination.DrawCard | static/script.js:445-476 | one loop pass keeps the card at `y` on its page or moves it to the top of the next page only when it does not fit; a card no taller than a page ends above the bottom margin; `y` moves down, and past the card's whole block when another card follows |
| Pagination.Paginate | static/script.js:418-477 | the export places each card by the page-break rule after the previous card and its separator; every card no taller than a page ends above the bottom margin; a card on the same page as the one before sits below it |
| Pagination.PlacementsFit | static/script.js:450-453 | under the page-break rule, every card no taller than a page ends above the bottom margin |
| Text.StripIsInfix | app.py:119 | `strip` returns the text between a white-space prefix and a white-space suffix |
| Text.StripPadded | app.py:119 | stripping white-space padding off a trimmed text gives that text |
| Text.StripIdempotent | app.py:124-128 | stripping twice is stripping once |
| Text.Lower | app.py:123 | lower-casing keeps the length and lowers each ASCII letter in place |
| Mcq.RemoveBoldSpec | app.py:110 | after removing `**` no `**` is left, every character other than `*` survives in order, and the text does not grow |
| Mcq.RemoveBoldNoop | app.py:110 | text without `**` is left unchanged |
| Mcq.MatcherSeesNoBold | app.py:110-111 | the block matcher runs on text free of `**`; removing `**` a second time changes nothing, so parsing text that is already free of `**` gives the same blocks |
| Mcq.DropGarbage | app.py:122-124 | a text starting with the garbage prefix in any case comes out as what follows the prefix, without its white-space padding; any other text is kept |
| Mcq.EatsLeadingQ | app.py:128 | the label removal as written drops the leading Q of any text starting with Q and a letter that is not the word "question" |
| Mcq.LabelRemovalEatsLeadingQ | app.py:128 | as written, "Quorum?" becomes "uorum?" |
| Mcq.KeepsWordStartingWithQ | app.py:128 | the corrected removal keeps a question whose first word merely starts with Q |
| Mcq.RemovesNumberedLabel | app.py:128 | the corrected removal still strips a `Question 1: ` label |
| Mcq.RemoveLabelExactly | app.py:128 | the corrected removal changes a text exactly when it starts with a real label; it then takes off the word `Question` or `Q` (in any case) and after it only spaces, digits, `:` and `.`, and stops at the first character that is not a space |
| Mcq.LabelRemovalsAgree | app.py:128 | the corrected and the as-written removal give the same text exactly when the text does not start with Q or starts with a real label |
| Mcq.CleanQuestion | app.py:119-128 | the cleaned question text is trimmed at both ends |
| Mcq.CleanQuestionKeeps | app.py:119-128 | a trimmed question with neither the garbage prefix nor a label comes out of the cleaning unchanged |
| Mcq.CleanQuestionsAgree | app.py:119-128 | the model's cleaning gives app.py's text exactly when the text before the label does not start with Q or starts with a real label |
| Mcq.Options | app.py:131-136 | a question has exactly four options |
| Mcq.PyIndex4 | app.py:139-140 | Python indexing of a four-element list names an element for -4 to 3, counting negative indices from the end |
| Mcq.NormalizeBlock | app.py:113-147 | a block raises an uncaught error exactly when the letter is not one character, and is skipped exactly when the letter's index is outside -4 to 3 |
| Mcq.EmittedQuestionShape | app.py:119-146 | a letter naming one of the four options emits a question holding the cleaned text, the four stripped options in A to D order, the stripped explanation, and an answer that is one of the options; the text is app.py's own cleaning exactly when that does not eat a leading Q |
| Mcq.LetterIndexOfMatched | app.py:138-139 | a letter the pattern captures (`A`-`D` in either case) gives index 0 to 3 |
| Mcq.MatchedLetterEmits | app.py:138-140 | for such a letter the block always yields a question whose answer is the option the letter names |
| Mcq.Collect | app.py:113-150 | the loop fails exactly when some block raises, and never returns more questions than blocks |
| Mcq.CollectedFromEmitted | app.py:113-147 | every returned question is the output of some block |
| Mcq.CollectAllEmitted | app.py:113-147 | when every block emits, every block's question is kept, in order |
| Mcq.CollectSkip | app.py:148-150 | a skipped block can be deleted from the input without changing the result |
| Mcq.ParseBlocksFails | app.py:113-150 | parsing fails exactly when some block raises; otherwise it returns at most one question per block |
| Mcq.ParsedQuestionsWellFormed | app.py:131-147 | every returned question has four options and its answer among them |
| Mcq.MatchedBlocksAllEmitted | app.py:113-147 | blocks with captured letters all come out, one question per block, in match order |
| Mcq.SkipDropsOnlyItsBlock | app.py:148-150 | the result with a skipped block is the result of the other blocks alone |

## Left out

- The DOM, `innerHTML` templating, CSS classes, button enabling, the loading
  panel and the `setTimeout` delays. They are presentation. A scheduled step
  (`showStep(1)` after a file is chosen, `startQuiz` after a successful
  request) happens at once in the model.
- `fetch` and `FormData`. The outcome of the request is an input
  (`Session.Reply`): a question list, an error status with its optional
  `error` text, or an exception message.
- A success body without a `questions` field. In the code this throws a
  `TypeError` inside the handler, which is caught and shown as `Error: …`.
  The model's `Generated` reply always carries a list.
- The `setInterval` tick and `clearInterval`. Only the text drawn for a given
  number of elapsed seconds is modelled (`Timer.FormatClock`).
- Chart.js, the percentage (`toFixed(2)`, floating point), and the flashcard
  flip animation.
- jsPDF drawing and fonts. `splitTextToSize` is a library call, so the
  numbers of wrapped lines are inputs (`Pagination.CardLines`). The page
  height is fixed at A4, 297.00008 mm.
- `encodeURI`, the data-URI prefix and the download link of the CSV export.
  `Csv.CsvText` is the text before encoding.
- The block regular expression of `parse_mcq_text` (lazy matching, DOTALL,
  the lookahead). The matcher is a parameter. The label pattern of step 3 is
  modelled by hand.
- Text.Lower, Text.Upper (and Mcq.NormalizeBlock's letter): only the ASCII
  letters are mapped. Python's `lower()` and `upper()` also map other
  letters, and `'ß'.upper()` is two characters long, so a one-character
  letter can still make `ord` raise in app.py where the model emits or skips.
  Unicode case tables are not part of this model.
- Python's `\d` also matches non-ASCII digits; the model's `IsDigit` takes
  only `0`-`9`.
- The Flask routes, PDF text extraction, OCR and the language-model call of
  app.py, and the `print` logging in `parse_mcq_text`.
- JSON numbers, booleans and `\u` escapes naming a UTF-16 surrogate. The
  stored values never contain the first two. The last are rejected by
  `Json.ReadChar`.
- Persistence.Load: stored text that `JSON.parse` accepts but that is not a
  list of question objects (each with a string question, a list of string
  options, a string answer and an optional string explanation) or a list of
  strings and nulls counts as unreadable. Examples are an answers entry of
  `{}`, a question without `options` or an explanation of `null`. The code
  carries on with such values; the model has no place for them.
- Decimal.IntToString, Decimal.ParseIntOfToString: JavaScript numbers are
  doubles; the model uses unbounded integers. Above 2^53 not every integer
  is a number, and from 10^21 on `toString` writes an exponent (`"1e+21"`,
  which `parseInt` reads as 1). The stored score is between 0
  and the number of questions, far below both bounds.
- Persistence.Load: a score entry that `parseInt` reads as `NaN` counts as
  unreadable. The code would show the results with a `NaN` score. A number
  type with `NaN` is not part of this model, and the application itself only
  ever writes a number there.
- Session.Init: an exception raised by `JSON.parse` at start-up is `None`.
  What the browser shows after an uncaught exception is not part of this
  model. Stored JSON of another shape is `None` too (see `Persistence.Load`
  above), although the code would show the results panel over it.
- Mcq.CleanQuestion, Mcq.NormalizeBlock, Mcq.ParseMcqText: the question text
  uses the corrected label removal, so a question that starts with Q
  without a label keeps its Q, where app.py's pattern drops it. The two
  agree on every other question (`Mcq.CleanQuestionsAgree`).
- Mcq.EmittedQuestionShape: it states the text from the corrected cleaning;
  it equals app.py's own cleaning only where `Mcq.CleanQuestionsAgree`
  says so.

## Findings

| source | as written | input that shows it | evidently intended | confidence | as-written member | corrected member |
|---|---|---|---|---|---|---|
| app.py:128 | `^(?:Question\|Q)\s*\d*\s*[:.]*\s*` with IGNORECASE: everything after the word is optional, so a bare leading `Q` or `q` matches | the question text "Quorum?" becomes "uorum?"; any question starting with Q and a letter, such as "Quantum …", loses its first letter | remove a label only when a number or `:`/`.` follows the word `Question` or `Q` | not executed | Mcq.LabelRemovalEatsLeadingQ | Mcq.RemoveLabelExactly |

=== FILE: common.dfy ===
/** Small shared vocabulary: optional values, results with an error, and
    sequence helpers used by several components. */
module Common {

  /** An optional value; `None` stands for JavaScript's `undefined`/`null`. */
  datatype Option<+T> = None | Some(value: T)

  /** A computation that either produced a value or raised an error. */
  datatype Result<+T, +E> = Ok(value: T) | Err(error: E)

  /** Number of occurrences of `c` in `s`. */
  function CountChar(s: string, c: char): (n: nat)
    ensures n <= |s|
    ensures n == 0 <==> (forall k :: 0 <= k < |s| ==> s[k] != c)
  {
    if s == [] then 0
    else (if s[0] == c then 1 else 0) + CountChar(s[1..], c)
  }

  /** `p` is a prefix of `s`. */
  predicate StartsWith(s: string, p: string) {
    |p| <= |s| && s[..|p|] == p
  }

  /** A sequence of `n` absent entries, like JavaScript's `new Array(n)`. */
  function Holes<T>(n: nat): (r: seq<Option<T>>)
    ensures |r| == n
    ensures forall k :: 0 <= k < n ==> r[k] == None
  {
    if n == 0 then [] else Holes(n - 1) + [None]
  }

  /** `f` applied to every element, in order. */
  function Map<A, B>(f: A -> B, xs: seq<A>): (r: seq<B>)
    ensures |r| == |xs|
    ensures forall k :: 0 <= k < |xs| ==> r[k] == f(xs[k])
  {
    seq(|xs|, k requires 0 <= k < |xs| => f(xs[k]))
  }

  /** Mapping commutes with dropping one element. */
  lemma MapWithout<A, B>(f: A -> B, xs: seq<A>, k: nat)
    requires k < |xs|
    ensures Map(f, xs[..k] + xs[k + 1..]) == Map(f, xs)[..k] + Map(f, xs)[k + 1..]
  {
    var shorter := xs[..k] + xs[k + 1..];
    var ys := Map(f, xs);
    forall j | 0 <= j < |shorter|
      ensures Map(f, shorter)[j] == (ys[..k] + ys[k + 1..])[j]
    {
      if j < k {
        assert shorter[j] == xs[j];
      } else {
        assert shorter[j] == xs[j + 1];
      }
    }
  }
}

=== FILE: csv.dfy ===
/** The flashcard CSV export (`downloadFlashcardsAsCSV`): a header line and one
    line per question, every field in double quotes with inner quotes doubled.
    A reader for that layout is defined alongside so that the export can be
    shown to lose nothing. */
module Csv {
  import opened Common
  import opened Questions

  const Header: string := "Question,Answer,Explanation\n"

  /** `text.replace(/"/g, '""')`. */
  function EscapeQuotes(s: string): (r: string)
    ensures |r| == |s| + CountChar(s, '"')
  {
    if s == [] then []
    else (if s[0] == '"' then ['"', '"'] else [s[0]]) + EscapeQuotes(s[1..])
  }

  /** A field as the export writes it. */
  function QuoteField(s: string): string {
    ['"'] + EscapeQuotes(s) + ['"']
  }

  /** One exported line: question, answer and explanation (empty when absent). */
  function Row(q: Question): string {
    QuoteField(q.question) + [','] + QuoteField(q.answer) + [','] + QuoteField(ExplanationText(q)) + ['\n']
  }

  function Rows(qs: seq<Question>): string {
    if qs == [] then [] else Row(qs[0]) + Rows(qs[1..])
  }

  /** The whole CSV text (before the browser URI-encodes it into a link). */
  function CsvText(qs: seq<Question>): (r: string)
    ensures StartsWith(r, Header)
    ensures qs == [] ==> r == Header
  {
    Header + Rows(qs)
  }

  /** Undoing the quote doubling: each `""` becomes one `"`. */
  function Unescape(s: string): string {
    if s == [] then []
    else if |s| >= 2 && s[0] == '"' && s[1] == '"' then ['"'] + Unescape(s[2..])
    else [s[0]] + Unescape(s[1..])
  }

  /** Un-doubling the interior of an exported field gives the original text. */
  lemma {:induction false} UnescapeEscape(s: string)
    ensures Unescape(EscapeQuotes(s)) == s
  {
    if s != [] {
      UnescapeEscape(s[1..]);
      if s[0] == '"' {
        assert EscapeQuotes(s) == ['"', '"'] + EscapeQuotes(s[1..]);
      } else {
        assert EscapeQuotes(s) == [s[0]] + EscapeQuotes(s[1..]);
      }
      assert s == [s[0]] + s[1..];
    }
  }

  /** One CSV line read back as its three fields. */
  datatype Record = Record(question: string, answer: string, explanation: string)

  function RecordOf(q: Question): Record {
    Record(q.question, q.answer, ExplanationText(q))
  }

  function Records(qs: seq<Question>): (r: seq<Record>)
    ensures |r| == |qs|
    ensures forall k :: 0 <= k < |qs| ==> r[k] == RecordOf(qs[k])
  {
    if qs == [] then [] else [RecordOf(qs[0])] + Records(qs[1..])
  }

  /** Reads the inside of a quoted field up to its closing quote; `""` stands
      for one quote. Returns the text and what follows the closing quote. */
  function ReadQuoted(s: string): (r: Option<(string, string)>)
    ensures r.Some? ==> |r.value.1| < |s|
  {
    if s == [] then None
    else if s[0] == '"' then
      if |s| >= 2 && s[1] == '"' then
        match ReadQuoted(s[2..])
        case None => None
        case Some((t, rest)) => Some((['"'] + t, rest))
      else Some(([], s[1..]))
    else
      match ReadQuoted(s[1..])
      case None => None
      case Some((t, rest)) => Some(([s[0]] + t, rest))
  }

  function ReadField(s: string): (r: Option<(string, string)>)
    ensures r.Some? ==> |r.value.1| < |s|
  {
    if s != [] && s[0] == '"' then ReadQuoted(s[1..]) else None
  }

  /** Reads a quoted field followed by the separator `sep`; returns the
      field's text and what follows the separator. */
  function ReadFieldThen(s: string, sep: char): (r: Option<(string, string)>)
    ensures r.Some? ==> |r.value.1| < |s|
  {
    match ReadField(s)
    case None => None
    case Some((t, rest)) =>
      if rest != [] && rest[0] == sep then Some((t, rest[1..])) else None
  }

  function ReadRow(s: string): (r: Option<(Record, string)>)
    ensures r.Some? ==> |r.value.1| < |s|
  {
    match ReadFieldThen(s, ',')
    case None => None
    case Some((q, s1)) =>
      match ReadFieldThen(s1, ',')
      case None => None
      case Some((a, s2)) =>
        match ReadFieldThen(s2, '\n')
        case None => None
        case Some((e, s3)) => Some((Record(q, a, e), s3))
  }

  function ReadRows(s: string): Option<seq<Record>>
    decreases |s|
  {
    if s == [] then Some([])
    else
      match ReadRow(s)
      case None => None
      case Some((rec, rest)) =>
        match ReadRows(rest)
        case None => None
        case Some(recs) => Some([rec] + recs)
  }

  /** Reads an exported CSV text back into its records. */
  function DecodeCsv(text: string): Option<seq<Record>> {
    if StartsWith(text, Header) then ReadRows(text[|Header|..]) else None
  }

  /** A doubled quote reads as one quote, then the reader carries on. */
  lemma ReadDoubledQuote(tail: string, t: string, rest: string)
    requires ReadQuoted(tail) == Some((t, rest))
    ensures ReadQuoted(['"', '"'] + tail) == Some((['"'] + t, rest))
  {
    assert (['"', '"'] + tail)[2..] == tail;
  }

  /** Any other character reads as itself. */
  lemma ReadPlainChar(c: char, tail: string, t: string, rest: string)
    requires c != '"' && ReadQuoted(tail) == Some((t, rest))
    ensures ReadQuoted([c] + tail) == Some(([c] + t, rest))
  {
    assert ([c] + tail)[1..] == tail;
  }

  /** The escaped text of a non-empty field, first character split off. */
  lemma EscapeQuotesCons(s: string, rest: string)
    requires s != []
    ensures EscapeQuotes(s) + ['"'] + rest
         == (if s[0] == '"' then ['"', '"'] else [s[0]]) + (EscapeQuotes(s[1..]) + ['"'] + rest)
  {
  }

  /** One escaped character in front of a text the reader already reads. */
  lemma ReadEscapedStep(s: string, rest: string)
    requires s != []
    requires ReadQuoted(EscapeQuotes(s[1..]) + ['"'] + rest) == Some((s[1..], rest))
    ensures ReadQuoted(EscapeQuotes(s) + ['"'] + rest) == Some((s, rest))
  {
    var tail := EscapeQuotes(s[1..]) + ['"'] + rest;
    EscapeQuotesCons(s, rest);
    if s[0] == '"' {
      ReadDoubledQuote(tail, s[1..], rest);
    } else {
      ReadPlainChar(s[0], tail, s[1..], rest);
    }
    assert s == [s[0]] + s[1..];
  }

  /** The reader stops at the closing quote of an exported field, provided the
      next character is not itself a quote (it is a comma or a line break). */
  lemma {:induction false} ReadQuotedEscaped(s: string, rest: string)
    requires rest == [] || rest[0] != '"'
    ensures ReadQuoted(EscapeQuotes(s) + ['"'] + rest) == Some((s, rest))
  {
    if s == [] {
      assert EscapeQuotes(s) + ['"'] + rest == ['"'] + rest;
    } else {
      ReadQuotedEscaped(s[1..], rest);
      ReadEscapedStep(s, rest);
    }
  }

  lemma ReadFieldQuoted(s: string, rest: string)
    requires rest == [] || rest[0] != '"'
    ensures ReadField(QuoteField(s) + rest) == Some((s, rest))
  {
    ReadQuotedEscaped(s, rest);
    assert (QuoteField(s) + rest)[1..] == EscapeQuotes(s) + ['"'] + rest;
  }

  lemma ReadFieldThenQuoted(x: string, sep: char, rest: string)
    requires sep != '"'
    ensures ReadFieldThen(QuoteField(x) + [sep] + rest, sep) == Some((x, rest))
  {
    ReadFieldQuoted(x, [sep] + rest);
    assert QuoteField(x) + [sep] + rest == QuoteField(x) + ([sep] + rest);
    assert ([sep] + rest)[1..] == rest;
  }

  lemma ReadRowOf(q: Question, rest: string)
    ensures ReadRow(Row(q) + rest) == Some((RecordOf(q), rest))
  {
    var e := ExplanationText(q);
    var s2 := QuoteField(e) + ['\n'] + rest;
    var s1 := QuoteField(q.answer) + [','] + s2;
    assert Row(q) + rest == QuoteField(q.question) + [','] + s1;
    ReadFieldThenQuoted(q.question, ',', s1);
    ReadFieldThenQuoted(q.answer, ',', s2);
    ReadFieldThenQuoted(e, '\n', rest);
  }

  lemma {:induction false} ReadRowsOf(qs: seq<Question>)
    ensures ReadRows(Rows(qs)) == Some(Records(qs))
  {
    if qs != [] {
      ReadRowOf(qs[0], Rows(qs[1..]));
      ReadRowsOf(qs[1..]);
    }
  }

  /** The export is lossless: reading the CSV text gives back exactly one
      record per question, in order, holding its question, answer and
      explanation (empty when the question has none). */
  lemma DecodeCsvText(qs: seq<Question>)
    ensures DecodeCsv(CsvText(qs)) == Some(Records(qs))
  {
    ReadRowsOf(qs);
    assert CsvText(qs)[|Header|..] == Rows(qs);
  }
}

=== FILE: decimal.dfy ===
/** Decimal text of integers, as JavaScript writes it with `toString()` and
    `padStart(2, '0')` and reads it back with `parseInt(text, 10)`. */
module Decimal {
  import opened Common
  import Text

  predicate AllDigits(s: string) {
    forall k :: 0 <= k < |s| ==> Text.IsDigit(s[k])
  }

  function DigitValue(c: char): (d: nat)
    requires Text.IsDigit(c)
    ensures d < 10
  {
    c as int - '0' as int
  }

  function DigitChar(d: nat): (c: char)
    requires d < 10
    ensures Text.IsDigit(c) && DigitValue(c) == d
  {
    ('0' as int + d) as char
  }

  /** The number a string of decimal digits denotes (most significant first). */
  function DigitsValue(s: string): nat
    requires AllDigits(s)
  {
    if s == [] then 0 else DigitsValue(s[..|s| - 1]) * 10 + DigitValue(s[|s| - 1])
  }

  /** `n.toString()` for a non-negative integer: canonical decimal digits that
      denote `n`, with no leading zero except for zero itself. */
  function NatToString(n: nat): (r: string)
    ensures |r| >= 1 && AllDigits(r)
    ensures DigitsValue(r) == n
    ensures r[0] == '0' ==> n == 0
    ensures n < 10 <==> |r| == 1
  {
    if n < 10 then [DigitChar(n)]
    else
      var p := NatToString(n / 10);
      var r := p + [DigitChar(n % 10)];
      assert r[..|r| - 1] == p;
      r
  }

  /** Two digits suffice exactly below one hundred. */
  lemma TwoDigitsBelowHundred(n: nat)
    ensures |NatToString(n)| <= 2 <==> n < 100
  {
    if n >= 10 {
      assert NatToString(n) == NatToString(n / 10) + [DigitChar(n % 10)];
    }
  }

  /** `n.toString()` of a JavaScript number holding the integer `n`, exact
      below 2^53 in absolute value (a larger one may not be a number, and
      from 10^21 on it is written with an exponent). The application only
      prints a score between 0 and the number of questions. */
  function IntToString(n: int): (r: string)
    ensures n >= 0 ==> r == NatToString(n)
    ensures n < 0 ==> r == ['-'] + NatToString(-n)
  {
    if n >= 0 then NatToString(n) else ['-'] + NatToString(-n)
  }

  /** `s.padStart(2, '0')`: zeros are put in front up to length two; a longer
      string is left as it is. */
  function PadStart2(s: string): (r: string)
    ensures |r| == if |s| >= 2 then |s| else 2
    ensures r[|r| - |s|..] == s
    ensures forall k :: 0 <= k < |r| - |s| ==> r[k] == '0'
  {
    if |s| >= 2 then s else if |s| == 1 then ['0'] + s else ['0', '0']
  }

  /** A leading zero does not change the value of a digit string. */
  lemma {:induction false} LeadingZero(s: string)
    requires AllDigits(s)
    ensures AllDigits(['0'] + s) && DigitsValue(['0'] + s) == DigitsValue(s)
  {
    if s != [] {
      var z := ['0'] + s;
      assert z[..|z| - 1] == ['0'] + s[..|s| - 1];
      LeadingZero(s[..|s| - 1]);
    }
  }

  /** Padding keeps the digits and the value. */
  lemma PadKeepsValue(s: string)
    requires AllDigits(s)
    ensures AllDigits(PadStart2(s)) && DigitsValue(PadStart2(s)) == DigitsValue(s)
  {
    if |s| == 1 {
      LeadingZero(s);
    } else if |s| == 0 {
      LeadingZero(['0']);
    }
  }

  /** JavaScript's StrWhiteSpaceChar: what `parseInt` skips at the front. */
  predicate IsJsSpace(c: char) {
    c == '\t' || c == '\n' || c == '\U{0B}' || c == '\U{0C}' || c == '\r' || c == ' '
    || c == '\U{A0}' || c == '\U{1680}' || ('\U{2000}' <= c <= '\U{200A}')
    || c == '\U{2028}' || c == '\U{2029}' || c == '\U{202F}' || c == '\U{205F}'
    || c == '\U{3000}' || c == '\U{FEFF}'
  }

  function SkipJsSpace(s: string): (r: string)
    ensures |r| <= |s| && r == s[|s| - |r|..]
    ensures r == [] || !IsJsSpace(r[0])
    ensures forall k :: 0 <= k < |s| - |r| ==> IsJsSpace(s[k])
  {
    if |s| > 0 && IsJsSpace(s[0]) then SkipJsSpace(s[1..]) else s
  }

  /** Length of the longest prefix of decimal digits. */
  function DigitRun(s: string): (n: nat)
    ensures n <= |s| && AllDigits(s[..n])
    ensures n < |s| ==> !Text.IsDigit(s[n])
  {
    if |s| > 0 && Text.IsDigit(s[0]) then
      var n := 1 + DigitRun(s[1..]);
      assert s[..n] == [s[0]] + s[1..][..n - 1];
      n
    else 0
  }

  /** `parseInt(s, 10)`: leading white space is skipped, one sign is read, and
      the longest run of digits after it gives the value; `None` is `NaN`. */
  function ParseInt(s: string): (r: Option<int>)
    ensures r.None? <==>
      var t := SkipJsSpace(s);
      var u := if t != [] && (t[0] == '+' || t[0] == '-') then t[1..] else t;
      u == [] || !Text.IsDigit(u[0])
  {
    var t := SkipJsSpace(s);
    var negative := t != [] && t[0] == '-';
    var u := if t != [] && (t[0] == '+' || t[0] == '-') then t[1..] else t;
    var n := DigitRun(u);
    if n == 0 then None
    else
      var v: int := DigitsValue(u[..n]);
      Some(if negative then -v else v)
  }

  /** `parseInt(n.toString(), 10) == n`: a score written to storage reads back. */
  lemma ParseIntOfToString(n: int)
    ensures ParseInt(IntToString(n)) == Some(n)
  {
    if n >= 0 {
      ParseIntOfNat(n);
    } else {
      ParseIntOfMinus(n);
    }
  }

  lemma ParseIntOfNat(m: nat)
    ensures ParseInt(IntToString(m)) == Some(m)
  {
    ParseIntOfDigits(NatToString(m));
  }

  lemma ParseIntOfMinus(n: int)
    requires n < 0
    ensures ParseInt(IntToString(n)) == Some(n)
  {
    var s := IntToString(n);
    assert s[0] == '-' && s[1..] == NatToString(-n);
    ParseIntOfNegative(s);
  }

  /** A plain run of digits reads as its value. */
  lemma ParseIntOfDigits(d: string)
    requires d != [] && AllDigits(d)
    ensures ParseInt(d) == Some(DigitsValue(d))
  {
    assert Text.IsDigit(d[0]);
    assert SkipJsSpace(d) == d;
    DigitRunAll(d);
    assert d[..|d|] == d;
  }

  /** A minus sign and a run of digits read as the negated value. */
  lemma ParseIntOfNegative(s: string)
    requires |s| >= 2 && s[0] == '-' && AllDigits(s[1..])
    ensures ParseInt(s) == Some(-(DigitsValue(s[1..]) as int))
  {
    SkipJsSpaceNoop(s);
    var d := s[1..];
    DigitRunAll(d);
    assert d[..|d|] == d;
    ParseIntOfSigned(s, DigitsValue(d));
  }

  /** White-space skipping leaves a text alone that starts with anything
      else. */
  lemma SkipJsSpaceNoop(s: string)
    requires s != [] && !IsJsSpace(s[0])
    ensures SkipJsSpace(s) == s
  {
  }

  /** A text that starts with a minus sign followed by digits reads as the
      negated value of those digits. */
  lemma ParseIntOfSigned(s: string, v: nat)
    requires SkipJsSpace(s) == s && s != [] && s[0] == '-'
    requires 0 < DigitRun(s[1..]) && DigitsValue(s[1..][..DigitRun(s[1..])]) == v
    ensures ParseInt(s) == Some(-(v as int))
  {
    var u := s[1..];
    var n := DigitRun(u);
    assert ParseInt(s) == Some(-(DigitsValue(u[..n]) as int));
  }

  lemma {:induction false} DigitRunAll(s: string)
    requires AllDigits(s)
    ensures DigitRun(s) == |s|
  {
    if s != [] {
      DigitRunAll(s[1..]);
    }
  }

  /** Text after the digits does not matter to `parseInt`. */
  lemma ParseIntIgnoresTail(n: nat, tail: string)
    requires tail == [] || !Text.IsDigit(tail[0])
    ensures ParseInt(NatToString(n) + tail) == Some(n)
  {
    var d := NatToString(n);
    var s := d + tail;
    assert !IsJsSpace(s[0]) && s[0] != '-' && s[0] != '+';
    assert SkipJsSpace(s) == s;
    DigitRunPrefix(d, tail);
    assert s[..|d|] == d;
    assert DigitsValue(s[..DigitRun(s)]) == n;
    assert ParseInt(s) == Some(n);
  }

  lemma {:induction false} DigitRunPrefix(s: string, tail: string)
    requires AllDigits(s)
    requires tail == [] || !Text.IsDigit(tail[0])
    ensures DigitRun(s + tail) == |s|
  {
    if s != [] {
      assert (s + tail)[1..] == s[1..] + tail;
      DigitRunPrefix(s[1..], tail);
    } else {
      assert s + tail == tail;
    }
  }
}

=== FILE: json.dfy ===
/** The part of JSON that the quiz keeps in browser storage: `null`, strings,
    arrays and objects. `Serialize` writes what `JSON.stringify` writes for
    such a value (no white space); `Parse` reads JSON text as `JSON.parse`
    does, white space included. Numbers and booleans never occur in the
    stored values and are not part of this model. */
module Json {
  import opened Common

  datatype Value =
    | Null
    | Str(s: string)
    | Arr(items: seq<Value>)
    | Obj(members: seq<Member>)

  datatype Member = Member(key: string, value: Value)

  // ---------------------------------------------------------------------
  // String literals

  const Hex: string := "0123456789abcdef"

  /** How `JSON.stringify` writes one character inside a string literal. */
  function EscapeChar(c: char): string {
    if c == '"' then ['\\', '"']
    else if c == '\\' then ['\\', '\\']
    else if c == '\U{08}' then ['\\', 'b']
    else if c == '\t' then ['\\', 't']
    else if c == '\n' then ['\\', 'n']
    else if c == '\U{0C}' then ['\\', 'f']
    else if c == '\r' then ['\\', 'r']
    else if c < ' ' then ['\\', 'u', '0', '0', Hex[c as int / 16], Hex[c as int % 16]]
    else [c]
  }

  function Escape(s: string): string {
    if s == [] then [] else EscapeChar(s[0]) + Escape(s[1..])
  }

  function Quote(s: string): string {
    ['"'] + Escape(s) + ['"']
  }

  function HexValue(c: char): (r: Option<nat>)
    ensures r.Some? ==> r.value < 16
  {
    if '0' <= c <= '9' then Some(c as int - '0' as int)
    else if 'a' <= c <= 'f' then Some(c as int - 'a' as int + 10)
    else if 'A' <= c <= 'F' then Some(c as int - 'A' as int + 10)
    else None
  }

  /** The character named by the four hex digits of a `\u` escape. Escapes
      naming a UTF-16 surrogate half are not part of this model and fail. */
  function UnicodeEscape(h: string): Option<char>
    requires |h| == 4
  {
    match (HexValue(h[0]), HexValue(h[1]), HexValue(h[2]), HexValue(h[3]))
    case (Some(a), Some(b), Some(c), Some(d)) =>
      var n := ((a * 16 + b) * 16 + c) * 16 + d;
      if 0xD800 <= n < 0xE000 then None else Some(n as char)
    case _ => None
  }

  /** The character a two-character escape `\x` stands for. */
  function SimpleEscape(x: char): Option<char> {
    if x == '"' || x == '\\' || x == '/' then Some(x)
    else if x == 'b' then Some('\U{08}')
    else if x == 'f' then Some('\U{0C}')
    else if x == 'n' then Some('\n')
    else if x == 'r' then Some('\r')
    else if x == 't' then Some('\t')
    else None
  }

  /** Reads one (possibly escaped) character of a string literal: the
      character and the text after it. */
  function ReadChar(s: string): (r: Option<(char, string)>)
    requires s != [] && s[0] != '"'
    ensures r.Some? ==> |r.value.1| < |s|
  {
    if s[0] == '\\' then
      if |s| < 2 then None
      else if s[1] == 'u' then
        if |s| < 6 then None
        else match UnicodeEscape(s[2..6])
          case Some(c) => Some((c, s[6..]))
          case None => None
      else match SimpleEscape(s[1])
        case Some(c) => Some((c, s[2..]))
        case None => None
    else if s[0] < ' ' then None
    else Some((s[0], s[1..]))
  }

  /** Reads the inside of a string literal up to its closing quote; returns
      the text and what follows the quote. */
  function ReadString(s: string): (r: Option<(string, string)>)
    ensures r.Some? ==> |r.value.1| < |s|
    decreases |s|
  {
    if s == [] then None
    else if s[0] == '"' then Some(([], s[1..]))
    else match ReadChar(s)
      case None => None
      case Some((c, rest)) =>
        match ReadString(rest)
        case None => None
        case Some((t, after)) => Some(([c] + t, after))
  }

  lemma ReadEscapedChar(c: char, tail: string)
    ensures EscapeChar(c) + tail != [] && (EscapeChar(c) + tail)[0] != '"'
    ensures ReadChar(EscapeChar(c) + tail) == Some((c, tail))
  {
    var e := EscapeChar(c);
    var s := e + tail;
    if c < ' ' && c != '\U{08}' && c != '\t' && c != '\n' && c != '\U{0C}' && c != '\r' {
      ReadUnicodeEscape(c, tail);
    } else if |e| == 2 {
      assert s[2..] == tail;
    } else {
      assert s[1..] == tail;
    }
  }

  /** A control character without a short escape is written as `\u00XX`
      and read back from it. */
  lemma ReadUnicodeEscape(c: char, tail: string)
    requires c < ' '
    ensures ReadChar(['\\', 'u', '0', '0', Hex[c as int / 16], Hex[c as int % 16]] + tail) == Some((c, tail))
  {
    var n := c as int;
    var s := ['\\', 'u', '0', '0', Hex[n / 16], Hex[n % 16]] + tail;
    assert s[2..6] == ['0', '0', Hex[n / 16], Hex[n % 16]];
    assert s[6..] == tail;
    assert HexValue(Hex[n / 16]) == Some(n / 16);
    assert HexValue(Hex[n % 16]) == Some(n % 16);
    assert UnicodeEscape(s[2..6]) == Some(c);
  }

  /** One character, then the rest of the literal. */
  lemma ReadStringStep(s: string, c: char, tail: string, t: string, rest: string)
    requires s != [] && s[0] != '"' && ReadChar(s) == Some((c, tail))
    requires ReadString(tail) == Some((t, rest))
    ensures ReadString(s) == Some(([c] + t, rest))
  {
  }

  /** A written string literal reads back as the original text, whatever
      follows it. */
  lemma {:induction false} ReadQuoted(t: string, rest: string)
    ensures ReadString(Escape(t) + ['"'] + rest) == Some((t, rest))
  {
    if t == [] {
      assert Escape(t) + ['"'] + rest == ['"'] + rest;
    } else {
      var tail := Escape(t[1..]) + ['"'] + rest;
      var s := EscapeChar(t[0]) + tail;
      assert Escape(t) + ['"'] + rest == s;
      ReadEscapedChar(t[0], tail);
      ReadQuoted(t[1..], rest);
      ReadStringStep(s, t[0], tail, t[1..], rest);
      assert [t[0]] + t[1..] == t;
    }
  }

  // ---------------------------------------------------------------------
  // Values

  /** `JSON.stringify` of a value. */
  function Serialize(v: Value): (r: string)
    ensures r != [] && (r[0] == 'n' || r[0] == '"' || r[0] == '[' || r[0] == '{')
    decreases v, 1
  {
    match v
    case Null => "null"
    case Str(s) => Quote(s)
    case Arr(items) => ['['] + SerializeItems(items) + [']']
    case Obj(members) => ['{'] + SerializeMembers(members) + ['}']
  }

  function SerializeItems(items: seq<Value>): string
    decreases items, 0
  {
    if items == [] then []
    else if |items| == 1 then Serialize(items[0])
    else Serialize(items[0]) + [','] + SerializeItems(items[1..])
  }

  function SerializeMembers(members: seq<Member>): string
    decreases members, 0
  {
    if members == [] then []
    else
      var first := MemberText(members[0]);
      if |members| == 1 then first else first + [','] + SerializeMembers(members[1..])
  }

  /** One `"key":value` pair as written inside an object. */
  function MemberText(m: Member): string
    decreases m, 2
  {
    Quote(m.key) + [':'] + Serialize(m.value)
  }

  predicate IsWs(c: char) {
    c == ' ' || c == '\t' || c == '\n' || c == '\r'
  }

  function SkipWs(s: string): (r: string)
    ensures |r| <= |s|
    ensures r == [] || !IsWs(r[0])
  {
    if s != [] && IsWs(s[0]) then SkipWs(s[1..]) else s
  }

  /** Reads one value, after optional white space; returns it and the rest. */
  function ParseValue(s: string): (r: Option<(Value, string)>)
    ensures r.Some? ==> |r.value.1| < |s|
    decreases |s|, 1
  {
    var t := SkipWs(s);
    if t == [] then None else ParseToken(t)
  }

  /** Reads the value whose first character starts `t`. */
  function ParseToken(t: string): (r: Option<(Value, string)>)
    requires t != []
    ensures r.Some? ==> |r.value.1| < |t|
    decreases |t|, 0
  {
    if t[0] == 'n' then
      if |t| >= 4 && t[..4] == "null" then Some((Null, t[4..])) else None
    else if t[0] == '"' then
      match ReadString(t[1..])
      case None => None
      case Some((str, rest)) => Some((Str(str), rest))
    else if t[0] == '[' then ParseArray(t[1..])
    else if t[0] == '{' then ParseObject(t[1..])
    else None
  }

  /** Reads an array after its `[`. */
  function ParseArray(s: string): (r: Option<(Value, string)>)
    ensures r.Some? ==> |r.value.1| < |s|
    decreases |s|, 3
  {
    var u := SkipWs(s);
    if u != [] && u[0] == ']' then Some((Arr([]), u[1..]))
    else
      match ParseItems(u)
      case None => None
      case Some((items, rest)) => Some((Arr(items), rest))
  }

  /** Reads an object after its `{`. */
  function ParseObject(s: string): (r: Option<(Value, string)>)
    ensures r.Some? ==> |r.value.1| < |s|
    decreases |s|, 4
  {
    var u := SkipWs(s);
    if u != [] && u[0] == '}' then Some((Obj([]), u[1..]))
    else
      match ParseMembers(u)
      case None => None
      case Some((members, rest)) => Some((Obj(members), rest))
  }

  /** Reads `value (, value)* ]`; returns the values and what follows `]`. */
  function ParseItems(s: string): (r: Option<(seq<Value>, string)>)
    ensures r.Some? ==> |r.value.1| < |s|
    decreases |s|, 2
  {
    match ParseValue(s)
    case None => None
    case Some((v, rest)) =>
      var u := SkipWs(rest);
      if u != [] && u[0] == ']' then Some(([v], u[1..]))
      else if u != [] && u[0] == ',' then
        match ParseItems(u[1..])
        case None => None
        case Some((vs, after)) => Some(([v] + vs, after))
      else None
  }

  /** Reads one `"key": value` pair, white space allowed around the tokens. */
  function ParseMember(s: string): (r: Option<(Member, string)>)
    ensures r.Some? ==> |r.value.1| < |s|
    decreases |s|, 2
  {
    var t := SkipWs(s);
    if t == [] || t[0] != '"' then None
    else
      match ReadString(t[1..])
      case None => None
      case Some((key, rest)) =>
        var u := SkipWs(rest);
        if u == [] || u[0] != ':' then None
        else
          match ParseValue(u[1..])
          case None => None
          case Some((v, after)) => Some((Member(key, v), after))
  }

  /** Reads `"key": value (, "key": value)* }`; returns the members and what
      follows `}`. */
  function ParseMembers(s: string): (r: Option<(seq<Member>, string)>)
    ensures r.Some? ==> |r.value.1| < |s|
    decreases |s|, 3
  {
    match ParseMember(s)
    case None => None
    case Some((m, rest)) =>
      var w := SkipWs(rest);
      if w != [] && w[0] == '}' then Some(([m], w[1..]))
      else if w != [] && w[0] == ',' then
        match ParseMembers(w[1..])
        case None => None
        case Some((ms, after)) => Some(([m] + ms, after))
      else None
  }

  /** `JSON.parse`: one value, optionally surrounded by white space; `None`
      is the `SyntaxError` it throws. */
  function Parse(text: string): Option<Value> {
    match ParseValue(text)
    case None => None
    case Some((v, rest)) => if SkipWs(rest) == [] then Some(v) else None
  }

  // ---------------------------------------------------------------------
  // Round trip

  lemma SkipNoWs(s: string)
    requires s != [] && !IsWs(s[0])
    ensures SkipWs(s) == s
  {
  }

  /** What `Serialize` writes, `ParseValue` reads back, whatever follows. */
  lemma {:induction false} ParseSerialized(v: Value, rest: string)
    ensures ParseValue(Serialize(v) + rest) == Some((v, rest))
    decreases v, 2
  {
    var s := Serialize(v) + rest;
    SkipNoWs(s);
    ParseTokenSerialized(v, rest);
  }

  lemma {:induction false} ParseTokenSerialized(v: Value, rest: string)
    ensures Serialize(v) + rest != []
    ensures ParseToken(Serialize(v) + rest) == Some((v, rest))
    decreases v, 1
  {
    match v
    case Null => ParseTokenNull(rest);
    case Str(t) => ParseTokenStr(t, rest);
    case Arr(items) =>
      ParseArraySerialized(items, rest);
      ParseTokenArrStep(items, rest);
    case Obj(members) =>
      ParseObjectSerialized(members, rest);
      ParseTokenObjStep(members, rest);
  }

  lemma ParseTokenArrStep(items: seq<Value>, rest: string)
    requires ParseArray(SerializeItems(items) + [']'] + rest) == Some((Arr(items), rest))
    ensures ParseToken(Serialize(Arr(items)) + rest) == Some((Arr(items), rest))
  {
    var body := SerializeItems(items) + [']'] + rest;
    OpenedText('[', SerializeItems(items), [']'], rest);
    ParseTokenOpensArray(['['] + body);
  }

  lemma ParseTokenObjStep(members: seq<Member>, rest: string)
    requires ParseObject(SerializeMembers(members) + ['}'] + rest) == Some((Obj(members), rest))
    ensures ParseToken(Serialize(Obj(members)) + rest) == Some((Obj(members), rest))
  {
    var body := SerializeMembers(members) + ['}'] + rest;
    OpenedText('{', SerializeMembers(members), ['}'], rest);
    ParseTokenOpensObject(['{'] + body);
  }

  lemma OpenedText(open: char, inner: string, close: string, rest: string)
    ensures [open] + inner + close + rest == [open] + (inner + close + rest)
  {
  }

  lemma ParseTokenOpensArray(s: string)
    requires s != [] && s[0] == '['
    ensures ParseToken(s) == ParseArray(s[1..])
  {
  }

  lemma ParseTokenOpensObject(s: string)
    requires s != [] && s[0] == '{'
    ensures ParseToken(s) == ParseObject(s[1..])
  {
  }

  lemma ParseTokenNull(rest: string)
    ensures ParseToken(Serialize(Null) + rest) == Some((Null, rest))
  {
    var s := Serialize(Null) + rest;
    assert s[..4] == "null" && s[4..] == rest;
  }

  lemma ParseTokenStr(t: string, rest: string)
    ensures ParseToken(Serialize(Str(t)) + rest) == Some((Str(t), rest))
  {
    var s := Serialize(Str(t)) + rest;
    assert s[0] == '"' && s[1..] == Escape(t) + ['"'] + rest;
    ReadQuoted(t, rest);
  }

  lemma {:induction false} ParseArraySerialized(items: seq<Value>, rest: string)
    ensures ParseArray(SerializeItems(items) + [']'] + rest) == Some((Arr(items), rest))
    decreases items, 1
  {
    var s := SerializeItems(items) + [']'] + rest;
    if items == [] {
      assert s == [']'] + rest;
      SkipNoWs(s);
      assert s[1..] == rest;
    } else {
      SerializeItemsStart(items);
      SkipNoWs(s);
      ParseItemsSerialized(items, rest);
    }
  }

  lemma {:induction false} ParseObjectSerialized(members: seq<Member>, rest: string)
    ensures ParseObject(SerializeMembers(members) + ['}'] + rest) == Some((Obj(members), rest))
    decreases members, 1
  {
    var s := SerializeMembers(members) + ['}'] + rest;
    if members == [] {
      assert s == ['}'] + rest;
      SkipNoWs(s);
      assert s[1..] == rest;
    } else {
      SerializeMembersStart(members);
      SkipNoWs(s);
      ParseMembersSerialized(members, rest);
    }
  }

  lemma SerializeItemsStart(items: seq<Value>)
    requires items != []
    ensures SerializeItems(items) != [] && SerializeItems(items)[0] == Serialize(items[0])[0]
  {
  }

  lemma SerializeMembersStart(members: seq<Member>)
    requires members != []
    ensures SerializeMembers(members) != [] && SerializeMembers(members)[0] == '"'
  {
  }

  lemma {:induction false} ParseItemsSerialized(items: seq<Value>, rest: string)
    requires items != []
    ensures ParseItems(SerializeItems(items) + [']'] + rest) == Some((items, rest))
    decreases items, 0
  {
    var s := SerializeItems(items) + [']'] + rest;
    var head := Serialize(items[0]);
    if |items| == 1 {
      assert s == head + ([']'] + rest);
      ParseSerialized(items[0], [']'] + rest);
      ParseItemsLastStep(s, items[0], rest);
      assert items == [items[0]];
    } else {
      var more := SerializeItems(items[1..]) + [']'] + rest;
      assert s == head + ([','] + more);
      ParseSerialized(items[0], [','] + more);
      ParseItemsSerialized(items[1..], rest);
      ParseItemsMoreStep(s, items[0], more, items[1..], rest);
      assert [items[0]] + items[1..] == items;
    }
  }

  lemma ParseItemsLastStep(s: string, v: Value, rest: string)
    requires ParseValue(s) == Some((v, [']'] + rest))
    ensures ParseItems(s) == Some(([v], rest))
  {
    SkipNoWs([']'] + rest);
    assert ([']'] + rest)[1..] == rest;
  }

  lemma ParseItemsMoreStep(s: string, v: Value, more: string, vs: seq<Value>, rest: string)
    requires ParseValue(s) == Some((v, [','] + more))
    requires ParseItems(more) == Some((vs, rest))
    ensures ParseItems(s) == Some(([v] + vs, rest))
  {
    SkipNoWs([','] + more);
    assert ([','] + more)[1..] == more;
  }

  lemma ParseMemberSerialized(m: Member, rest: string)
    ensures ParseMember(MemberText(m) + rest) == Some((m, rest))
  {
    var valueText := Serialize(m.value) + rest;
    var s := MemberText(m) + rest;
    MemberTextSplit(m, rest);
    assert s[1..] == Escape(m.key) + ['"'] + ([':'] + valueText);
    ReadQuoted(m.key, [':'] + valueText);
    ParseSerialized(m.value, rest);
    ParseMemberStep(s, m.key, valueText, m.value, rest);
  }

  lemma MemberTextSplit(m: Member, rest: string)
    ensures MemberText(m) + rest ==
      ['"'] + (Escape(m.key) + ['"'] + ([':'] + (Serialize(m.value) + rest)))
  {
  }

  /** A key literal, a colon and a value make one member. */
  lemma ParseMemberStep(s: string, key: string, valueText: string, v: Value, after: string)
    requires s != [] && s[0] == '"'
    requires ReadString(s[1..]) == Some((key, [':'] + valueText))
    requires ParseValue(valueText) == Some((v, after))
    ensures ParseMember(s) == Some((Member(key, v), after))
  {
    SkipNoWs(s);
    SkipNoWs([':'] + valueText);
    assert ([':'] + valueText)[1..] == valueText;
  }

  lemma {:induction false} ParseMembersSerialized(members: seq<Member>, rest: string)
    requires members != []
    ensures ParseMembers(SerializeMembers(members) + ['}'] + rest) == Some((members, rest))
    decreases members, 0
  {
    var m := members[0];
    var s := SerializeMembers(members) + ['}'] + rest;
    if |members| == 1 {
      MembersTextLast(members, rest);
      ParseMemberSerialized(m, ['}'] + rest);
      ParseMembersLastStep(s, m, rest);
      assert members == [m];
    } else {
      var more := SerializeMembers(members[1..]) + ['}'] + rest;
      MembersTextMore(members, rest);
      ParseMemberSerialized(m, [','] + more);
      ParseMembersSerialized(members[1..], rest);
      ParseMembersMoreStep(s, m, more, members[1..], rest);
      assert [m] + members[1..] == members;
    }
  }

  /** The text of a non-empty member list is its first member, then either
      the closing brace or a comma and the remaining members. */
  lemma MembersTextLast(members: seq<Member>, rest: string)
    requires |members| == 1
    ensures SerializeMembers(members) + ['}'] + rest ==
      MemberText(members[0]) + (['}'] + rest)
  {
    assert SerializeMembers(members) == MemberText(members[0]);
  }

  lemma MembersTextMore(members: seq<Member>, rest: string)
    requires |members| > 1
    ensures SerializeMembers(members) + ['}'] + rest ==
      MemberText(members[0]) + ([','] + (SerializeMembers(members[1..]) + ['}'] + rest))
  {
    var first := MemberText(members[0]);
    var tail := SerializeMembers(members[1..]);
    assert SerializeMembers(members) == first + [','] + tail;
    Associate(first, [','], tail, ['}'], rest);
  }

  lemma Associate(a: string, b: string, c: string, d: string, e: string)
    ensures a + b + c + d + e == a + (b + (c + d + e))
  {
  }

  lemma ParseMembersLastStep(s: string, m: Member, rest: string)
    requires ParseMember(s) == Some((m, ['}'] + rest))
    ensures ParseMembers(s) == Some(([m], rest))
  {
    SkipNoWs(['}'] + rest);
    assert (['}'] + rest)[1..] == rest;
  }

  lemma ParseMembersMoreStep(s: string, m: Member, more: string, ms: seq<Member>, rest: string)
    requires ParseMember(s) == Some((m, [','] + more))
    requires ParseMembers(more) == Some((ms, rest))
    ensures ParseMembers(s) == Some(([m] + ms, rest))
  {
    SkipNoWs([','] + more);
    assert ([','] + more)[1..] == more;
  }

  /** `JSON.parse(JSON.stringify(v))` gives `v` back. */
  lemma ParseOfSerialize(v: Value)
    ensures Parse(Serialize(v)) == Some(v)
  {
    ParseSerialized(v, []);
    assert Serialize(v) + [] == Serialize(v);
  }
}

=== FILE: mcq.dfy ===
/** The server's post-processing of the language model's text
    (`parse_mcq_text` in app.py). The regular expression that cuts the text
    into question blocks is not modelled: the matcher is a parameter that
    yields, per block, the captured groups. What is modelled is everything
    done around it: removing `**` before matching and turning each block's
    groups into a question record. */
module Mcq {
  import opened Common
  import opened Text
  import opened Questions

  /** The named groups of one block match. */
  datatype Groups = Groups(
    question: string,
    optA: string, optB: string, optC: string, optD: string,
    answerLetter: string,
    explanation: string)

  // ---------------------------------------------------------------------
  // `re.sub(r'\*\*', '', text)`

  /** Left-to-right removal of non-overlapping `**` pairs. */
  function RemoveBold(s: string): string {
    if |s| >= 2 && s[0] == '*' && s[1] == '*' then RemoveBold(s[2..])
    else if s == [] then []
    else [s[0]] + RemoveBold(s[1..])
  }

  /** The text with every `*` dropped. */
  function Unstarred(s: string): string {
    if s == [] then [] else (if s[0] == '*' then [] else [s[0]]) + Unstarred(s[1..])
  }

  predicate NoDoubleStar(s: string) {
    forall k :: 0 <= k < |s| - 1 ==> !(s[k] == '*' && s[k + 1] == '*')
  }

  lemma {:induction false} RemoveBoldKeepsFirst(s: string)
    requires s != [] && s[0] != '*'
    ensures RemoveBold(s) != [] && RemoveBold(s)[0] == s[0]
  {
  }

  /** After the removal no `**` is left (a run of stars leaves at most one),
      and every other character survives, in order. */
  lemma {:induction false} RemoveBoldSpec(s: string)
    ensures NoDoubleStar(RemoveBold(s))
    ensures Unstarred(RemoveBold(s)) == Unstarred(s)
    ensures |RemoveBold(s)| <= |s|
    decreases |s|
  {
    if |s| >= 2 && s[0] == '*' && s[1] == '*' {
      RemoveBoldSpec(s[2..]);
      assert Unstarred(s) == Unstarred(s[1..]);
      assert Unstarred(s[1..]) == Unstarred(s[2..]);
    } else if s != [] {
      var r := RemoveBold(s[1..]);
      RemoveBoldSpec(s[1..]);
      assert RemoveBold(s) == [s[0]] + r;
      assert Unstarred([s[0]] + r) == (if s[0] == '*' then [] else [s[0]]) + Unstarred(r) by {
        assert ([s[0]] + r)[1..] == r;
      }
      if s[0] == '*' && r != [] {
        assert |s| >= 2 && s[1] != '*';
        RemoveBoldKeepsFirst(s[1..]);
      }
    }
  }

  /** Text without `**` is left alone. */
  lemma {:induction false} RemoveBoldNoop(s: string)
    requires NoDoubleStar(s)
    ensures RemoveBold(s) == s
    decreases |s|
  {
    if s != [] {
      RemoveBoldNoop(s[1..]);
      assert [s[0]] + s[1..] == s;
    }
  }

  // ---------------------------------------------------------------------
  // Cleaning the question text

  /** What is left of a model's preamble such as "Here are 5 multiple-choice
      questions based on the provided text:" once the block match has taken
      its "question" as the label. */
  const GarbagePrefix: string := "s based on the provided text:"

  /** Step 2: the prefix is removed when the text starts with it, compared in
      lower case (for this prefix, Python's full `lower()` and an ASCII one
      agree: no other character lowers to one of its letters alone). */
  function DropGarbage(q: string): (r: string)
    ensures StartsWith(Lower(q), GarbagePrefix) ==> Trimmed(r) && |r| + |GarbagePrefix| <= |q|
    ensures StartsWith(Lower(q), GarbagePrefix) ==>
      exists a, b :: AllSpace(a) && AllSpace(b) && q[|GarbagePrefix|..] == a + r + b
    ensures !StartsWith(Lower(q), GarbagePrefix) ==> r == q
  {
    if StartsWith(Lower(q), GarbagePrefix) then
      var rest := q[|GarbagePrefix|..];
      StripPadding(rest);
      Strip(rest)
    else q
  }

  /** `strip` leaves its result padded by white space on both sides. */
  lemma StripPadding(s: string)
    ensures exists a, b :: AllSpace(a) && AllSpace(b) && s == a + Strip(s) + b
  {
    StripIsInfix(s);
    var r := Strip(s);
    var i := |s| - |LStrip(s)|;
    assert s == s[..i] + r + s[i + |r|..];
  }

  function SkipSpaces(s: string): (r: string)
    ensures |r| <= |s|
    ensures r == [] || !IsSpace(r[0])
  {
    if s != [] && IsSpace(s[0]) then SkipSpaces(s[1..]) else s
  }

  function SkipDigits(s: string): (r: string)
    ensures |r| <= |s|
    ensures r == [] || !IsDigit(r[0])
  {
    if s != [] && IsDigit(s[0]) then SkipDigits(s[1..]) else s
  }

  predicate IsSep(c: char) {
    c == ':' || c == '.'
  }

  function SkipSeps(s: string): (r: string)
    ensures |r| <= |s|
    ensures r == [] || !IsSep(r[0])
  {
    if s != [] && IsSep(s[0]) then SkipSeps(s[1..]) else s
  }

  /** The part `\s*\d*\s*[:.]*\s*` of the label pattern, matched greedily;
      nothing after it can fail, so the greedy match is the one taken. */
  function LabelTail(t: string): (r: string)
    ensures |r| <= |t|
    ensures r == [] || !IsSpace(r[0])
  {
    SkipSpaces(SkipSeps(SkipSpaces(SkipDigits(SkipSpaces(t)))))
  }

  /** A character the label part `\s*\d*\s*[:.]*\s*` can match. */
  predicate IsLabelChar(c: char) {
    IsSpace(c) || IsDigit(c) || IsSep(c)
  }

  /** `r` is what is left of `s` once a front part made only of label
      characters is removed. */
  predicate DropsLabelChars(r: string, s: string) {
    && |r| <= |s| && r == s[|s| - |r|..]
    && forall k :: 0 <= k < |s| - |r| ==> IsLabelChar(s[k])
  }

  lemma DropsTwice(r: string, m: string, s: string)
    requires DropsLabelChars(r, m) && DropsLabelChars(m, s)
    ensures DropsLabelChars(r, s)
  {
    assert s[|s| - |r|..] == s[|s| - |m|..][|m| - |r|..];
    forall k | |s| - |m| <= k < |s| - |r|
      ensures IsLabelChar(s[k])
    {
      assert s[k] == m[k - (|s| - |m|)];
    }
  }

  lemma {:induction false} SkipSpacesDrops(s: string)
    ensures DropsLabelChars(SkipSpaces(s), s)
  {
    if s != [] && IsSpace(s[0]) {
      SkipSpacesDrops(s[1..]);
      DropsTwice(SkipSpaces(s), s[1..], s);
    }
  }

  lemma {:induction false} SkipDigitsDrops(s: string)
    ensures DropsLabelChars(SkipDigits(s), s)
  {
    if s != [] && IsDigit(s[0]) {
      SkipDigitsDrops(s[1..]);
      DropsTwice(SkipDigits(s), s[1..], s);
    }
  }

  lemma {:induction false} SkipSepsDrops(s: string)
    ensures DropsLabelChars(SkipSeps(s), s)
  {
    if s != [] && IsSep(s[0]) {
      SkipSepsDrops(s[1..]);
      DropsTwice(SkipSeps(s), s[1..], s);
    }
  }

  /** The label tail only ever removes label characters from the front. */
  lemma LabelTailDrops(t: string)
    ensures DropsLabelChars(LabelTail(t), t)
  {
    var a := SkipSpaces(t);
    var b := SkipDigits(a);
    var c := SkipSpaces(b);
    var d := SkipSeps(c);
    SkipSpacesDrops(t);
    SkipDigitsDrops(a);
    DropsTwice(b, a, t);
    SkipSpacesDrops(b);
    DropsTwice(c, b, t);
    SkipSepsDrops(c);
    DropsTwice(d, c, t);
    SkipSpacesDrops(d);
    DropsTwice(SkipSpaces(d), d, t);
  }

  /** Step 3 as written: `re.sub(r'^(?:Question|Q)\s*\d*\s*[:.]*\s*', '', q,
      flags=re.IGNORECASE)`. Every part after the word may match nothing, so
      any text that merely starts with the letter Q loses that letter. */
  function RemoveLabelAsWritten(q: string): string {
    if StartsWithIgnoringCase(q, "question") then LabelTail(q[8..])
    else if StartsWithIgnoringCase(q, "q") then LabelTail(q[1..])
    else q
  }

  /** A label word is followed, after optional spaces, by a number or a
      `:`/`.`; "Quantum" or "Questionnaire" do not start with a label. */
  predicate Labelled(t: string) {
    var u := SkipSpaces(t);
    u != [] && (IsDigit(u[0]) || IsSep(u[0]))
  }

  /** The text starts with a real label: the word "Question" or the letter
      Q, then, after optional spaces, a number or a `:`/`.`. */
  predicate HasLabel(q: string) {
    || (StartsWithIgnoringCase(q, "question") && Labelled(q[8..]))
    || (StartsWithIgnoringCase(q, "q") && Labelled(q[1..]))
  }

  /** Step 3 as evidently intended: a "Question N:"/"Q N." label is removed,
      and a text that only starts with the letter Q is kept whole. */
  function RemoveLabel(q: string): (r: string)
    ensures |r| <= |q|
  {
    if StartsWithIgnoringCase(q, "question") && Labelled(q[8..]) then LabelTail(q[8..])
    else if StartsWithIgnoringCase(q, "q") && Labelled(q[1..]) then LabelTail(q[1..])
    else q
  }

  /** Nothing of the label tail matches before a character that is not a
      space, a digit or a separator. */
  lemma LabelTailKeeps(t: string)
    requires t == [] || (!IsSpace(t[0]) && !IsDigit(t[0]) && !IsSep(t[0]))
    ensures LabelTail(t) == t
  {
    assert SkipSpaces(t) == t;
    assert SkipDigits(t) == t;
    assert SkipSeps(t) == t;
  }

  /** Texts that differ, ignoring case, at a position of the prefix do not
      start with it. */
  lemma DiffersAt(s: string, p: string, k: nat)
    requires k < |p| <= |s| && LowerChar(s[k]) != LowerChar(p[k])
    ensures !StartsWithIgnoringCase(s, p)
  {
    assert Lower(s[..|p|])[k] == LowerChar(s[k]);
  }

  lemma StartsWithQ(s: string)
    requires s != [] && (s[0] == 'q' || s[0] == 'Q')
    ensures StartsWithIgnoringCase(s, "q")
  {
    assert Lower(s[..1]) == [LowerChar(s[0])];
  }

  lemma StartsWithQuestion(s: string)
    requires |s| >= 8 && s[..8] == "Question"
    ensures StartsWithIgnoringCase(s, "question")
  {
    LowerKeepsLowercase("question");
    assert Lower("Question") == "question" by {
      assert forall k :: 0 <= k < 8 ==> Lower("Question")[k] == "question"[k];
    }
  }

  /** Lower-casing leaves a text without capitals alone. */
  lemma LowerKeepsLowercase(p: string)
    requires forall k :: 0 <= k < |p| ==> !('A' <= p[k] <= 'Z')
    ensures Lower(p) == p
  {
  }

  /** The as-written removal drops the leading Q of any text that starts
      with Q and a letter, unless it starts with the word "question". */
  lemma EatsLeadingQ(q: string)
    requires |q| >= 2 && (q[0] == 'Q' || q[0] == 'q') && IsAsciiLetter(q[1])
    requires !StartsWithIgnoringCase(q, "question")
    ensures RemoveLabelAsWritten(q) == q[1..]
  {
    StartsWithQ(q);
    LabelTailKeeps(q[1..]);
  }

  /** The as-written removal eats the first letter of a question that starts
      with "Qu…". */
  lemma LabelRemovalEatsLeadingQ()
    ensures RemoveLabelAsWritten("Quorum?") == "uorum?"
  {
    EatsLeadingQ("Quorum?");
  }

  predicate IsAsciiLetter(c: char) {
    ('a' <= c <= 'z') || ('A' <= c <= 'Z')
  }

  /** A letter after the label word means there is no label. */
  lemma LetterIsNoLabel(t: string)
    requires t != [] && IsAsciiLetter(t[0])
    ensures !Labelled(t)
  {
    assert SkipSpaces(t) == t;
  }

  /** The corrected removal keeps a question whose first word merely starts
      with Q: the letter after the Q (and after "Question", when the text
      starts with that word) is a letter. */
  lemma KeepsWordStartingWithQ(q: string)
    requires |q| >= 2 && IsAsciiLetter(q[1])
    requires StartsWithIgnoringCase(q, "question") ==> |q| > 8 && IsAsciiLetter(q[8])
    ensures RemoveLabel(q) == q
  {
    LetterIsNoLabel(q[1..]);
    if StartsWithIgnoringCase(q, "question") {
      LetterIsNoLabel(q[8..]);
    }
  }

  /** The label part " 1: " of a numbered question. */
  lemma NumberedLabelTail(text: string)
    requires text == [] || (!IsSpace(text[0]) && !IsDigit(text[0]) && !IsSep(text[0]))
    ensures Labelled(" 1: " + text)
    ensures LabelTail(" 1: " + text) == text
  {
    var t := " 1: " + text;
    assert SkipSpaces(t) == "1: " + text by {
      assert t[1..] == "1: " + text;
    }
    assert SkipDigits("1: " + text) == ": " + text by {
      assert ("1: " + text)[1..] == ": " + text;
    }
    assert SkipSpaces(": " + text) == ": " + text;
    assert SkipSeps(": " + text) == " " + text by {
      assert (": " + text)[1..] == " " + text;
    }
    assert SkipSpaces(" " + text) == text by {
      assert (" " + text)[1..] == text;
    }
  }

  /** It still removes a numbered label. */
  lemma RemovesNumberedLabel(text: string)
    requires text == [] || (!IsSpace(text[0]) && !IsDigit(text[0]) && !IsSep(text[0]))
    ensures RemoveLabel("Question 1: " + text) == text
  {
    var s := "Question 1: " + text;
    assert s[..8] == "Question" && s[8..] == " 1: " + text;
    StartsWithQuestion(s);
    NumberedLabelTail(text);
  }

  /** A text starting with "question" also starts with "q", and its second
      letter is a `u`, so what follows the Q alone is no label. */
  lemma QuestionWord(q: string)
    requires StartsWithIgnoringCase(q, "question")
    ensures StartsWithIgnoringCase(q, "q") && !Labelled(q[1..])
  {
    QuestionLetters(q);
    assert Lower(q[..1]) == [LowerChar(q[0])];
    LowerKeepsLowercase("q");
    assert SkipSpaces(q[1..]) == q[1..];
  }

  /** The first two letters of a text starting with "question" in any case. */
  lemma QuestionLetters(q: string)
    requires StartsWithIgnoringCase(q, "question")
    ensures LowerChar(q[0]) == 'q' && (q[1] == 'u' || q[1] == 'U')
  {
    LowerKeepsLowercase("question");
    var l := Lower(q[..8]);
    assert l == "question";
    assert l[0] == LowerChar(q[0]) && l[1] == LowerChar(q[1]);
  }

  /** The length of the label word of a labelled text: 8 for "Question",
      1 for a bare "Q". */
  function LabelWord(q: string): nat {
    if StartsWithIgnoringCase(q, "question") && Labelled(q[8..]) then 8 else 1
  }

  /** The corrected removal changes a text exactly when it starts with a
      label. It then removes the label word and, after it, only spaces,
      digits, `:` and `.`, up to the first character that is not white
      space. */
  lemma RemoveLabelExactly(q: string)
    ensures RemoveLabel(q) == q <==> !HasLabel(q)
    ensures HasLabel(q) ==> var r := RemoveLabel(q); var w := LabelWord(q);
      && w <= |q| && StartsWithIgnoringCase(q, if w == 8 then "question" else "q")
      && |r| < |q| && DropsLabelChars(r, q[w..]) && (r == [] || !IsSpace(r[0]))
  {
    if StartsWithIgnoringCase(q, "question") {
      QuestionWord(q);
    }
    if HasLabel(q) {
      LabelTailDrops(q[LabelWord(q)..]);
    }
  }

  /** Where the as-written and the corrected removal agree: on every text
      that does not start with Q and on every text that starts with a real
      label. On a text that starts with Q without a label (like "Quorum?")
      the two differ. */
  lemma LabelRemovalsAgree(q: string)
    ensures RemoveLabel(q) == RemoveLabelAsWritten(q) <==> !StartsWithIgnoringCase(q, "q") || HasLabel(q)
  {
    if StartsWithIgnoringCase(q, "question") {
      QuestionWord(q);
    }
  }

  /** The text step 3 works on: stripped, and without the preamble. */
  function BeforeLabel(raw: string): (t: string)
    ensures Trimmed(t)
  {
    var s := Strip(raw);
    if StartsWith(Lower(s), GarbagePrefix) then DropGarbage(s) else s
  }

  /** Steps 1 to 3 of the question cleaning, with the final strip. */
  function CleanQuestion(raw: string): (r: string)
    ensures Trimmed(r)
  {
    Strip(RemoveLabel(BeforeLabel(raw)))
  }

  /** The same, with the label removal as written. */
  function CleanQuestionAsWritten(raw: string): (r: string)
    ensures Trimmed(r)
  {
    Strip(RemoveLabelAsWritten(BeforeLabel(raw)))
  }

  /** A trimmed question without the preamble and without a label comes out
      of the cleaning unchanged. */
  lemma CleanQuestionKeeps(raw: string)
    requires Trimmed(raw) && !StartsWith(Lower(raw), GarbagePrefix) && !HasLabel(raw)
    ensures CleanQuestion(raw) == raw
  {
    StripIdempotentTrimmed(raw);
    RemoveLabelExactly(raw);
  }

  lemma StripIdempotentTrimmed(t: string)
    requires Trimmed(t)
    ensures Strip(t) == t
  {
    StripPadded([], t, []);
    assert [] + t + [] == t;
  }

  /** The cleaning with the corrected label removal gives the text app.py's
      cleaning gives exactly when the text before the label does not start
      with Q or starts with a real label. */
  lemma CleanQuestionsAgree(raw: string)
    ensures var t := BeforeLabel(raw);
      CleanQuestion(raw) == CleanQuestionAsWritten(raw) <==> !StartsWithIgnoringCase(t, "q") || HasLabel(t)
  {
    var t := BeforeLabel(raw);
    LabelRemovalsAgree(t);
    if StartsWithIgnoringCase(t, "q") && !HasLabel(t) {
      RemoveLabelExactly(t);
      StripIdempotentTrimmed(t);
      assert |RemoveLabelAsWritten(t)| < |t|;
    }
  }

  // ---------------------------------------------------------------------
  // One block

  /** What happens to one block: a question is appended, the block is
      skipped (an IndexError, caught), or an exception the loop does not
      catch ends the whole parse (a TypeError from `ord`). */
  datatype BlockOutcome = Emitted(q: Question) | Skipped | Raised(error: string)

  /** `ord(letter) - ord('A')` on the stripped, upper-cased letter. */
  function LetterIndex(letter: string): Option<int> {
    var l := Upper(Strip(letter));
    if |l| == 1 then Some(l[0] as int - 'A' as int) else None
  }

  /** Python list indexing of a four-element list: -4..3 are valid, a
      negative index counts from the end. */
  function PyIndex4(i: int): (k: nat)
    requires -4 <= i < 4
    ensures k < 4 && (k == i || k == i + 4)
  {
    if i < 0 then i + 4 else i
  }

  function Options(g: Groups): (r: seq<string>)
    ensures |r| == 4
  {
    [Strip(g.optA), Strip(g.optB), Strip(g.optC), Strip(g.optD)]
  }

  /** Four options, and the answer is one of them. */
  predicate FourOptions(q: Question) {
    |q.options| == 4 && q.answer in q.options
  }

  /** The loop body of `parse_mcq_text`. */
  function NormalizeBlock(g: Groups): (r: BlockOutcome)
    ensures r.Raised? <==> LetterIndex(g.answerLetter).None?
    ensures r.Skipped? <==> LetterIndex(g.answerLetter).Some? && !(-4 <= LetterIndex(g.answerLetter).value < 4)
  {
    var question := CleanQuestion(g.question);
    var options := Options(g);
    match LetterIndex(g.answerLetter)
    case None => Raised("ord() expected a character")
    case Some(i) =>
      if -4 <= i < 4 then
        Emitted(Question(question, options, options[PyIndex4(i)], Some(Strip(g.explanation))))
      else Skipped
  }

  /** A letter naming one of the four options (counted from either end)
      emits a question: the cleaned question text, the four stripped options
      in order, the option the letter names as the answer (so the answer is
      always one of the options), and the stripped explanation. The question
      text is the one app.py's own label removal gives exactly when that
      removal takes off a real label or nothing. */
  lemma EmittedQuestionShape(g: Groups)
    requires LetterIndex(g.answerLetter).Some? && -4 <= LetterIndex(g.answerLetter).value < 4
    ensures NormalizeBlock(g).Emitted?
    ensures var q := NormalizeBlock(g).q;
      && q.options == Options(g)
      && q.question == CleanQuestion(g.question) && Trimmed(q.question)
      && q.explanation == Some(Strip(g.explanation))
      && FourOptions(q)
    ensures var t := BeforeLabel(g.question);
      (NormalizeBlock(g).q.question == CleanQuestionAsWritten(g.question)
       <==> !StartsWithIgnoringCase(t, "q") || HasLabel(t))
  {
    var i := LetterIndex(g.answerLetter).value;
    assert NormalizeBlock(g).q.answer == Options(g)[PyIndex4(i)];
    CleanQuestionsAgree(g.question);
  }

  /** The block pattern captures the letter with `[A-D]` under IGNORECASE. */
  predicate IsMatchedLetter(s: string) {
    |s| == 1 && ('A' <= s[0] <= 'D' || 'a' <= s[0] <= 'd')
  }

  /** A captured letter names option 0 to 3. */
  lemma LetterIndexOfMatched(s: string)
    requires IsMatchedLetter(s)
    ensures LetterIndex(s) == Some(UpperChar(s[0]) as int - 'A' as int)
    ensures 0 <= UpperChar(s[0]) as int - 'A' as int < 4
  {
    assert Strip(s) == s by { StripPadded([], s, []); assert [] + s + [] == s; }
    assert Upper(s) == [UpperChar(s[0])];
  }

  /** A letter naming one of the four options emits a question whose answer
      is that option. */
  lemma EmitsNamedOption(g: Groups, i: int)
    requires LetterIndex(g.answerLetter) == Some(i) && 0 <= i < 4
    ensures NormalizeBlock(g).Emitted? && NormalizeBlock(g).q.answer == Options(g)[i]
  {
    assert PyIndex4(i) == i;
  }

  /** For a letter the pattern can capture, the block always yields a
      question, whose answer is the option the letter names. */
  lemma MatchedLetterEmits(g: Groups)
    requires IsMatchedLetter(g.answerLetter)
    ensures NormalizeBlock(g).Emitted?
    ensures var k := UpperChar(g.answerLetter[0]) as int - 'A' as int;
      0 <= k < 4 && NormalizeBlock(g).q.answer == Options(g)[k]
  {
    LetterIndexOfMatched(g.answerLetter);
    EmitsNamedOption(g, UpperChar(g.answerLetter[0]) as int - 'A' as int);
  }

  // ---------------------------------------------------------------------
  // All blocks

  /** The match loop over the outcomes of the blocks, in match order:
      an emitted question is appended, a skipped block adds nothing, and
      the first uncaught exception ends the whole call. */
  function Collect(os: seq<BlockOutcome>): (r: Result<seq<Question>, string>)
    ensures r.Ok? ==> |r.value| <= |os|
    ensures r.Err? <==> exists k :: 0 <= k < |os| && os[k].Raised?
  {
    if os == [] then Ok([])
    else
      assert forall k :: 1 <= k < |os| ==> os[k] == os[1..][k - 1];
      match os[0]
      case Raised(e) => Err(e)
      case Skipped => Collect(os[1..])
      case Emitted(q) =>
        match Collect(os[1..])
        case Err(e) => Err(e)
        case Ok(qs) => Ok([q] + qs)
  }

  /** The outcome of every block the matcher found. */
  function Outcomes(gs: seq<Groups>): (os: seq<BlockOutcome>)
    ensures |os| == |gs|
    ensures forall k :: 0 <= k < |gs| ==> os[k] == NormalizeBlock(gs[k])
  {
    Map(NormalizeBlock, gs)
  }

  /** The loop of `parse_mcq_text` over the matched blocks. */
  function ParseBlocks(gs: seq<Groups>): Result<seq<Question>, string> {
    Collect(Outcomes(gs))
  }

  /** Every question in the loop's output came from an emitting block. */
  lemma {:induction false} CollectedFromEmitted(os: seq<BlockOutcome>)
    requires Collect(os).Ok?
    ensures forall j :: 0 <= j < |Collect(os).value| ==>
      exists k :: 0 <= k < |os| && os[k] == Emitted(Collect(os).value[j])
  {
    if os != [] {
      var rest := Collect(os[1..]);
      CollectedFromEmitted(os[1..]);
      var out := Collect(os).value;
      forall j | 0 <= j < |out|
        ensures exists k :: 0 <= k < |os| && os[k] == Emitted(out[j])
      {
        if os[0].Emitted? && j == 0 {
          assert os[0] == Emitted(out[0]);
        } else {
          var j' := if os[0].Emitted? then j - 1 else j;
          assert out[j] == rest.value[j'];
          var k' :| 0 <= k' < |os[1..]| && os[1..][k'] == Emitted(rest.value[j']);
          assert os[k' + 1] == Emitted(out[j]);
        }
      }
    }
  }

  /** When every block emits, every block's question is kept, in order. */
  lemma {:induction false} CollectAllEmitted(os: seq<BlockOutcome>)
    requires forall k :: 0 <= k < |os| ==> os[k].Emitted?
    ensures Collect(os).Ok?
    ensures |Collect(os).value| == |os|
    ensures forall k :: 0 <= k < |os| ==> os[k] == Emitted(Collect(os).value[k])
  {
    if os != [] {
      var rest := Collect(os[1..]);
      CollectAllEmitted(os[1..]);
      var out := Collect(os).value;
      assert out == [os[0].q] + rest.value;
      forall k | 1 <= k < |os|
        ensures os[k] == Emitted(out[k])
      {
        assert os[k] == os[1..][k - 1];
      }
    }
  }

  /** A skipped outcome takes nothing else with it. */
  lemma {:induction false} CollectSkip(os: seq<BlockOutcome>, k: nat)
    requires k < |os| && os[k].Skipped?
    ensures Collect(os) == Collect(os[..k] + os[k + 1..])
  {
    var shorter := os[..k] + os[k + 1..];
    if k == 0 {
      assert shorter == os[1..];
    } else {
      CollectSkip(os[1..], k - 1);
      assert shorter[0] == os[0];
      assert shorter[1..] == os[1..][..k - 1] + os[1..][k..];
    }
  }

  /** The call fails exactly when some block raises. */
  lemma ParseBlocksFails(gs: seq<Groups>)
    ensures ParseBlocks(gs).Ok? ==> |ParseBlocks(gs).value| <= |gs|
    ensures ParseBlocks(gs).Err? <==> exists k :: 0 <= k < |gs| && NormalizeBlock(gs[k]).Raised?
  {
    var os := Outcomes(gs);
    if ParseBlocks(gs).Err? {
      var k :| 0 <= k < |os| && os[k].Raised?;
      assert NormalizeBlock(gs[k]).Raised?;
    }
  }

  /** Every question the call returns has four options and its answer
      among them, whatever the matcher captured. */
  lemma ParsedQuestionsWellFormed(gs: seq<Groups>)
    requires ParseBlocks(gs).Ok?
    ensures forall j :: 0 <= j < |ParseBlocks(gs).value| ==> FourOptions(ParseBlocks(gs).value[j])
  {
    var os := Outcomes(gs);
    var out := ParseBlocks(gs).value;
    CollectedFromEmitted(os);
    forall j | 0 <= j < |out|
      ensures FourOptions(out[j])
    {
      var k :| 0 <= k < |os| && os[k] == Emitted(out[j]);
      EmittedQuestionShape(gs[k]);
    }
  }

  /** Blocks whose letter the pattern can capture all come out, one question
      per block, in match order. */
  lemma MatchedBlocksAllEmitted(gs: seq<Groups>)
    requires forall k :: 0 <= k < |gs| ==> IsMatchedLetter(gs[k].answerLetter)
    ensures ParseBlocks(gs).Ok?
    ensures |ParseBlocks(gs).value| == |gs|
    ensures forall k :: 0 <= k < |gs| ==> NormalizeBlock(gs[k]) == Emitted(ParseBlocks(gs).value[k])
  {
    var os := Outcomes(gs);
    forall k | 0 <= k < |gs|
      ensures os[k].Emitted?
    {
      MatchedLetterEmits(gs[k]);
    }
    CollectAllEmitted(os);
  }

  /** Dropping a block drops its outcome and leaves the others in place. */
  lemma OutcomesWithout(gs: seq<Groups>, k: nat)
    requires k < |gs|
    ensures Outcomes(gs[..k] + gs[k + 1..]) == Outcomes(gs)[..k] + Outcomes(gs)[k + 1..]
  {
    MapWithout(NormalizeBlock, gs, k);
  }

  /** A skipped block takes nothing else with it: the result is the one the
      other blocks give on their own. */
  lemma SkipDropsOnlyItsBlock(gs: seq<Groups>, k: nat)
    requires k < |gs| && NormalizeBlock(gs[k]).Skipped?
    ensures ParseBlocks(gs) == ParseBlocks(gs[..k] + gs[k + 1..])
  {
    CollectSkip(Outcomes(gs), k);
    OutcomesWithout(gs, k);
  }

  /** `parse_mcq_text`: `**` is removed, the matcher cuts the cleaned text
      into blocks, and the blocks are normalised. */
  function ParseMcqText(text: string, matcher: string -> seq<Groups>): Result<seq<Question>, string> {
    ParseBlocks(matcher(RemoveBold(text)))
  }

  /** The matcher never sees a `**`, and so text whose bold marks were
      already removed parses to the same result: the removal is idempotent. */
  lemma MatcherSeesNoBold(text: string, matcher: string -> seq<Groups>)
    ensures NoDoubleStar(RemoveBold(text))
    ensures RemoveBold(RemoveBold(text)) == RemoveBold(text)
    ensures ParseMcqText(RemoveBold(text), matcher) == ParseMcqText(text, matcher)
  {
    RemoveBoldSpec(text);
    RemoveBoldNoop(RemoveBold(text));
  }
}

=== FILE: pdf.dfy ===
/** Page layout of the flashcard PDF export (`downloadFlashcardsAsPDF`).
    Drawing and text wrapping belong to the PDF library; the model takes the
    number of wrapped lines of each card's three texts as given and computes
    where each card lands. Units are millimetres on an A4 portrait page. */
module Pagination {

  /** Wrapped line counts of a card's question, answer and explanation. */
  datatype CardLines = CardLines(question: nat, answer: nat, explanation: nat)

  /** Where a card's question text is drawn: page number (from 1) and `y`. */
  datatype Placement = Placement(page: nat, top: int)

  const Margin: int := 15
  const TitleAdvance: int := 15
  const Separator: int := 10

  /** `pageHeight - margin` as the integer test sees it: the A4 height is
      841.89 pt = 297.00008 mm, and `y` only takes integer values, so
      `y + h > 297.00008 - 15` holds exactly when `y + h > 282`. */
  const PageBottom: int := 282

  /** The room a card asks for before it is drawn (5 mm per question or
      answer line, 4 mm per explanation line, 15 mm of spacing). */
  function BlockHeight(c: CardLines): int {
    c.question * 5 + c.answer * 5 + c.explanation * 4 + 15
  }

  /** How far `y` moves while a card is drawn (the separator not included). */
  function CardAdvance(c: CardLines): int {
    (c.question * 5 + 2) + (c.answer * 5 + 2) + (c.explanation * 4 + 10)
  }

  /** The page-break rule: a card starts a new page, at the top margin,
      exactly when its block would pass the bottom margin at `y`. */
  function Place(page: nat, y: int, c: CardLines): (p: Placement)
    ensures p.top + BlockHeight(c) <= PageBottom || p.top == Margin
    ensures p.page == page || (p.page == page + 1 && p.top == Margin)
    ensures p.page == page ==> p.top == y
    ensures p.page == page + 1 <==> y + BlockHeight(c) > PageBottom
  {
    if y + BlockHeight(c) > PageBottom then Placement(page + 1, Margin) else Placement(page, y)
  }

  /** Where the card after `prev` is considered: below `prev` and its
      separator line. */
  function After(prev: Placement, c: CardLines): int {
    prev.top + CardAdvance(c) + Separator
  }

  /** The export loop: the title takes the first 15 mm under the margin, then
      each card is placed by the page-break rule; a separator follows every
      card but the last. Returns the placements, the number of pages and the
      final `y`. */
  method Paginate(cards: seq<CardLines>) returns (placements: seq<Placement>, pages: nat, endY: int)
    ensures |placements| == |cards|
    ensures cards != [] ==> placements[0] == Place(1, Margin + TitleAdvance, cards[0])
    ensures forall i :: 0 < i < |cards| ==>
      placements[i] == Place(placements[i - 1].page, After(placements[i - 1], cards[i - 1]), cards[i])
    ensures forall i :: 0 <= i < |cards| && BlockHeight(cards[i]) <= PageBottom - Margin ==>
      placements[i].top + BlockHeight(cards[i]) <= PageBottom
    ensures forall i :: 0 < i < |cards| && placements[i].page == placements[i - 1].page ==>
      placements[i].top == After(placements[i - 1], cards[i - 1]) > placements[i - 1].top
    ensures cards == [] ==> pages == 1 && endY == Margin + TitleAdvance
    ensures cards != [] ==> pages == placements[|cards| - 1].page
    ensures cards != [] ==> endY == placements[|cards| - 1].top + CardAdvance(cards[|cards| - 1])
  {
    var page: nat := 1;
    var y := Margin;
    y := y + TitleAdvance;
    placements := [];
    var i := 0;
    while i < |cards|
      invariant 0 <= i <= |cards| && |placements| == i
      invariant i == 0 ==> page == 1 && y == Margin + TitleAdvance
      invariant 0 < i ==> page == placements[i - 1].page
      invariant 0 < i < |cards| ==> y == After(placements[i - 1], cards[i - 1])
      invariant i == |cards| > 0 ==> y == placements[i - 1].top + CardAdvance(cards[i - 1])
      invariant 0 < i ==> placements[0] == Place(1, Margin + TitleAdvance, cards[0])
      invariant forall k :: 0 < k < i ==>
        placements[k] == Place(placements[k - 1].page, After(placements[k - 1], cards[k - 1]), cards[k])
    {
      var p;
      p, y := DrawCard(page, y, cards[i], i == |cards| - 1);
      page := p.page;
      placements := placements + [p];
      i := i + 1;
    }
    PlacementsFit(cards, placements);
    pages := page;
    endY := y;
  }

  /** One pass of the export loop: the page-break test, then the three texts
      and, unless this is the last card, the separator. Returns where the
      card went and the `y` after it: the card stays on the page at `y` or
      opens the next page at the top margin, a card no taller than a page
      ends above the bottom margin, and the next card starts below this
      card's whole block. */
  method DrawCard(page: nat, y: int, c: CardLines, last: bool) returns (p: Placement, next: int)
    ensures p == Place(page, y, c)
    ensures next == if last then p.top + CardAdvance(c) else After(p, c)
    ensures BlockHeight(c) <= PageBottom - Margin ==> p.top + BlockHeight(c) <= PageBottom
    ensures p.page == page ==> p.top == y
    ensures p.page != page ==> p.page == page + 1 && p.top == Margin && y + BlockHeight(c) > PageBottom
    ensures next > p.top
    ensures !last ==> next > p.top + BlockHeight(c)
  {
    var questionHeight := c.question * 5;
    var answerHeight := c.answer * 5;
    var explanationHeight := c.explanation * 4;
    var blockHeight := questionHeight + answerHeight + explanationHeight + 15;
    var pageNow := page;
    var top := y;
    if top + blockHeight > PageBottom {
      pageNow := pageNow + 1;
      top := Margin;
    }
    p := Placement(pageNow, top);
    next := top + questionHeight + 2;
    next := next + answerHeight + 2;
    next := next + explanationHeight + 10;
    if !last {
      next := next + Separator;
    }
  }

  /** Every card no taller than a page ends above the bottom margin. */
  lemma PlacementsFit(cards: seq<CardLines>, placements: seq<Placement>)
    requires |placements| == |cards|
    requires cards != [] ==> placements[0] == Place(1, Margin + TitleAdvance, cards[0])
    requires forall i :: 0 < i < |cards| ==>
      placements[i] == Place(placements[i - 1].page, After(placements[i - 1], cards[i - 1]), cards[i])
    ensures forall i :: 0 <= i < |cards| && BlockHeight(cards[i]) <= PageBottom - Margin ==>
      placements[i].top + BlockHeight(cards[i]) <= PageBottom
  {
    forall i | 0 <= i < |cards| && BlockHeight(cards[i]) <= PageBottom - Margin
      ensures placements[i].top + BlockHeight(cards[i]) <= PageBottom
    {
      if i > 0 {
        assert placements[i] == Place(placements[i - 1].page, After(placements[i - 1], cards[i - 1]), cards[i]);
      }
    }
  }
}

=== FILE: persistence.dfy ===
/** The three `localStorage` entries the quiz keeps (`quizData`, `userAnswers`,
    `score`), written with `JSON.stringify`/`toString` and read back with
    `JSON.parse`/`parseInt` (static/script.js). Storage is a plain map from
    key to text. */
module Persistence {
  import opened Common
  import opened Questions
  import Json
  import Decimal

  type Storage = map<string, string>

  const QuizDataKey: string := "quizData"
  const UserAnswersKey: string := "userAnswers"
  const ScoreKey: string := "score"

  // ---------------------------------------------------------------------
  // Records as JSON values

  function StrItems(ss: seq<string>): (r: seq<Json.Value>)
    ensures |r| == |ss|
  {
    if ss == [] then [] else [Json.Str(ss[0])] + StrItems(ss[1..])
  }

  /** A question object; `JSON.stringify` leaves out an absent explanation. */
  function QuestionToJson(q: Question): Json.Value {
    Json.Obj(
      [ Json.Member("question", Json.Str(q.question)),
        Json.Member("options", Json.Arr(StrItems(q.options))),
        Json.Member("answer", Json.Str(q.answer)) ]
      + match q.explanation
        case Some(e) => [Json.Member("explanation", Json.Str(e))]
        case None => [])
  }

  function QuestionItems(qs: seq<Question>): (r: seq<Json.Value>)
    ensures |r| == |qs|
  {
    if qs == [] then [] else [QuestionToJson(qs[0])] + QuestionItems(qs[1..])
  }

  /** An answer list; a question never answered is a hole and becomes `null`. */
  function AnswerItems(ua: seq<Option<string>>): (r: seq<Json.Value>)
    ensures |r| == |ua|
  {
    if ua == [] then []
    else [match ua[0] case Some(a) => Json.Str(a) case None => Json.Null] + AnswerItems(ua[1..])
  }

  /** Member lookup as `JSON.parse` builds objects: a repeated key keeps its
      last value. */
  function Lookup(members: seq<Json.Member>, key: string): (r: Option<Json.Value>)
    ensures r.None? <==> forall k :: 0 <= k < |members| ==> members[k].key != key
  {
    if members == [] then None
    else if members[|members| - 1].key == key then Some(members[|members| - 1].value)
    else Lookup(members[..|members| - 1], key)
  }

  function AsString(v: Option<Json.Value>): Option<string> {
    if v.Some? && v.value.Str? then Some(v.value.s) else None
  }

  function AsStrings(items: seq<Json.Value>): Option<seq<string>> {
    if items == [] then Some([])
    else
      var rest := AsStrings(items[1..]);
      if items[0].Str? && rest.Some? then Some([items[0].s] + rest.value) else None
  }

  /** Reads a question object back; a missing explanation is `None`, and a
      value of the wrong kind makes the record unreadable. */
  function QuestionFromJson(v: Json.Value): Option<Question> {
    if !v.Obj? then None
    else
      var text := AsString(Lookup(v.members, "question"));
      var opts := Lookup(v.members, "options");
      var answer := AsString(Lookup(v.members, "answer"));
      var expl := Lookup(v.members, "explanation");
      var options := if opts.Some? && opts.value.Arr? then AsStrings(opts.value.items) else None;
      if text.None? || options.None? || answer.None? then None
      else if expl.None? then Some(Question(text.value, options.value, answer.value, None))
      else if expl.value.Str? then Some(Question(text.value, options.value, answer.value, Some(expl.value.s)))
      else None
  }

  function QuestionsFromItems(items: seq<Json.Value>): Option<seq<Question>> {
    if items == [] then Some([])
    else
      var q := QuestionFromJson(items[0]);
      var rest := QuestionsFromItems(items[1..]);
      if q.Some? && rest.Some? then Some([q.value] + rest.value) else None
  }

  function AnswersFromItems(items: seq<Json.Value>): Option<seq<Option<string>>> {
    if items == [] then Some([])
    else
      var rest := AnswersFromItems(items[1..]);
      if rest.None? then None
      else if items[0].Str? then Some([Some(items[0].s)] + rest.value)
      else if items[0].Null? then Some([None] + rest.value)
      else None
  }

  // ---------------------------------------------------------------------
  // Stored texts

  function EncodeQuizData(qs: seq<Question>): string {
    Json.Serialize(Json.Arr(QuestionItems(qs)))
  }

  function DecodeQuizData(text: string): Option<seq<Question>> {
    var v := Json.Parse(text);
    if v.Some? && v.value.Arr? then QuestionsFromItems(v.value.items) else None
  }

  function EncodeAnswers(ua: seq<Option<string>>): string {
    Json.Serialize(Json.Arr(AnswerItems(ua)))
  }

  function DecodeAnswers(text: string): Option<seq<Option<string>>> {
    var v := Json.Parse(text);
    if v.Some? && v.value.Arr? then AnswersFromItems(v.value.items) else None
  }

  lemma {:induction false} StringsRoundTrip(ss: seq<string>)
    ensures AsStrings(StrItems(ss)) == Some(ss)
  {
    if ss != [] {
      var items := StrItems(ss);
      StringsRoundTrip(ss[1..]);
      assert items == [Json.Str(ss[0])] + StrItems(ss[1..]);
      assert items[0] == Json.Str(ss[0]) && items[1..] == StrItems(ss[1..]);
      assert AsStrings(items) == Some([ss[0]] + ss[1..]);
      assert [ss[0]] + ss[1..] == ss;
    }
  }

  /** A member added at the end answers for its key ... */
  lemma LookupLast(ms: seq<Json.Member>, m: Json.Member)
    ensures Lookup(ms + [m], m.key) == Some(m.value)
  {
  }

  /** ... and leaves every other key to the members before it. */
  lemma LookupOther(ms: seq<Json.Member>, m: Json.Member, key: string)
    requires m.key != key
    ensures Lookup(ms + [m], key) == Lookup(ms, key)
  {
    assert (ms + [m])[..|ms|] == ms;
  }

  /** The lookups a question object answers. */
  lemma QuestionLookups(q: Question)
    ensures var ms := QuestionToJson(q).members;
      && Lookup(ms, "question") == Some(Json.Str(q.question))
      && Lookup(ms, "options") == Some(Json.Arr(StrItems(q.options)))
      && Lookup(ms, "answer") == Some(Json.Str(q.answer))
      && Lookup(ms, "explanation") == (if q.explanation.Some? then Some(Json.Str(q.explanation.value)) else None)
  {
    var m1 := Json.Member("question", Json.Str(q.question));
    var m2 := Json.Member("options", Json.Arr(StrItems(q.options)));
    var m3 := Json.Member("answer", Json.Str(q.answer));
    assert "question"[0] == 'q' && "options"[0] == 'o' && "answer"[0] == 'a' && "explanation"[0] == 'e';
    assert [m1, m2] == [m1] + [m2] && [m1, m2, m3] == [m1, m2] + [m3];
    assert [m1] == [] + [m1];
    LookupLast([], m1);
    LookupOther([m1], m2, "question");
    LookupLast([m1], m2);
    LookupOther([m1, m2], m3, "question");
    LookupOther([m1, m2], m3, "options");
    LookupLast([m1, m2], m3);
    var base := [m1, m2, m3];
    assert Lookup(base, "explanation") == None;
    var ms := QuestionToJson(q).members;
    if q.explanation.Some? {
      var m4 := Json.Member("explanation", Json.Str(q.explanation.value));
      assert ms == base + [m4];
      LookupOther(base, m4, "question");
      LookupOther(base, m4, "options");
      LookupOther(base, m4, "answer");
      LookupLast(base, m4);
    } else {
      assert ms == base;
    }
  }

  lemma QuestionRoundTrip(q: Question)
    ensures QuestionFromJson(QuestionToJson(q)) == Some(q)
  {
    StringsRoundTrip(q.options);
    QuestionLookups(q);
  }

  lemma {:induction false} QuestionsRoundTrip(qs: seq<Question>)
    ensures QuestionsFromItems(QuestionItems(qs)) == Some(qs)
  {
    if qs != [] {
      QuestionRoundTrip(qs[0]);
      QuestionsRoundTrip(qs[1..]);
      assert [qs[0]] + qs[1..] == qs;
    }
  }

  lemma {:induction false} AnswersRoundTrip(ua: seq<Option<string>>)
    ensures AnswersFromItems(AnswerItems(ua)) == Some(ua)
  {
    if ua != [] {
      AnswersRoundTrip(ua[1..]);
      assert [ua[0]] + ua[1..] == ua;
    }
  }

  /** The stored question list reads back as the list that was stored. */
  lemma QuizDataRoundTrip(qs: seq<Question>)
    ensures DecodeQuizData(EncodeQuizData(qs)) == Some(qs)
  {
    Json.ParseOfSerialize(Json.Arr(QuestionItems(qs)));
    QuestionsRoundTrip(qs);
  }

  /** The stored answers read back as stored, holes as `None`. */
  lemma AnswersTextRoundTrip(ua: seq<Option<string>>)
    ensures DecodeAnswers(EncodeAnswers(ua)) == Some(ua)
  {
    Json.ParseOfSerialize(Json.Arr(AnswerItems(ua)));
    AnswersRoundTrip(ua);
  }

  // ---------------------------------------------------------------------
  // Writing, clearing and reading the three entries

  /** `localStorage.setItem('quizData', JSON.stringify(quizData))`: only that
      entry changes. */
  function SaveQuizData(st: Storage, qs: seq<Question>): (r: Storage)
    ensures r.Keys == st.Keys + {QuizDataKey}
    ensures forall k :: k in st && k != QuizDataKey ==> r[k] == st[k]
  {
    st[QuizDataKey := EncodeQuizData(qs)]
  }

  /** The saved question list reads back as the list saved. */
  lemma SavedQuizDataReadsBack(st: Storage, qs: seq<Question>)
    ensures DecodeQuizData(SaveQuizData(st, qs)[QuizDataKey]) == Some(qs)
  {
    QuizDataRoundTrip(qs);
  }

  /** The two writes at the end of a quiz, the answers and the score; only
      those two entries change. */
  function SaveResults(st: Storage, ua: seq<Option<string>>, score: int): (r: Storage)
    ensures r.Keys == st.Keys + {UserAnswersKey, ScoreKey}
    ensures forall k :: k in st && k != UserAnswersKey && k != ScoreKey ==> r[k] == st[k]
  {
    assert UserAnswersKey[0] != ScoreKey[0];
    st[UserAnswersKey := EncodeAnswers(ua)][ScoreKey := Decimal.IntToString(score)]
  }

  /** The saved answers and score read back as saved. */
  lemma SavedResultsReadBack(st: Storage, ua: seq<Option<string>>, score: int)
    ensures DecodeAnswers(SaveResults(st, ua, score)[UserAnswersKey]) == Some(ua)
    ensures Decimal.ParseInt(SaveResults(st, ua, score)[ScoreKey]) == Some(score)
  {
    var r := SaveResults(st, ua, score);
    assert UserAnswersKey[0] != ScoreKey[0];
    assert r[UserAnswersKey] == EncodeAnswers(ua);
    assert r[ScoreKey] == Decimal.IntToString(score);
    AnswersTextRoundTrip(ua);
    Decimal.ParseIntOfToString(score);
  }

  /** The three `removeItem` calls of a restart; every other entry stays. */
  function Clear(st: Storage): (r: Storage)
    ensures r.Keys == st.Keys - {QuizDataKey, UserAnswersKey, ScoreKey}
    ensures forall k :: k in r ==> r[k] == st[k]
  {
    st - {QuizDataKey, UserAnswersKey, ScoreKey}
  }

  /** What start-up finds in storage. */
  datatype Saved =
    | NothingSaved
    | Restored(quizData: seq<Question>, userAnswers: seq<Option<string>>, score: int)
    | Unreadable

  /** The start-up test: the two JSON entries must hold non-empty text (an
      empty string is falsy) and the score entry must merely exist. */
  predicate HasSavedQuiz(st: Storage) {
    && QuizDataKey in st && st[QuizDataKey] != []
    && UserAnswersKey in st && st[UserAnswersKey] != []
    && ScoreKey in st
  }

  /** Reads the three entries back. `Unreadable` stands for the text that
      `JSON.parse` rejects (an exception the start-up code does not catch),
      for well-formed JSON that is not a list of question objects or a list
      of strings and nulls (which the start-up code would carry on with), and
      for a score that is not a number. */
  function Load(st: Storage): (r: Saved)
    ensures r.NothingSaved? <==> !HasSavedQuiz(st)
    ensures r.Restored? ==> DecodeQuizData(st[QuizDataKey]) == Some(r.quizData)
    ensures r.Restored? ==> DecodeAnswers(st[UserAnswersKey]) == Some(r.userAnswers)
    ensures r.Restored? ==> Decimal.ParseInt(st[ScoreKey]) == Some(r.score)
    ensures (&& QuizDataKey in st && UserAnswersKey in st && ScoreKey in st
             && DecodeQuizData(st[QuizDataKey]).Some? && DecodeAnswers(st[UserAnswersKey]).Some?
             && Decimal.ParseInt(st[ScoreKey]).Some?) ==> r.Restored?
  {
    EmptyTextIsNoQuizData();
    EmptyTextIsNoAnswers();
    if !HasSavedQuiz(st) then NothingSaved
    else
      match (DecodeQuizData(st[QuizDataKey]), DecodeAnswers(st[UserAnswersKey]), Decimal.ParseInt(st[ScoreKey]))
      case (Some(qs), Some(ua), Some(n)) => Restored(qs, ua, n)
      case _ => Unreadable
  }

  /** After a restart's clearing, nothing is found at start-up. */
  lemma LoadAfterClear(st: Storage)
    ensures Load(Clear(st)) == NothingSaved
  {
  }

  /** A finished quiz's entries read back as they were written. */
  lemma LoadAfterSave(st: Storage, qs: seq<Question>, ua: seq<Option<string>>, score: int)
    ensures Load(SaveResults(SaveQuizData(st, qs), ua, score)) == Restored(qs, ua, score)
  {
    SavedQuizDataReadsBack(st, qs);
    LoadAfterResults(SaveQuizData(st, qs), ua, score);
  }

  /** Empty text is not a stored quiz: `JSON.parse("")` throws. */
  lemma EmptyTextIsNoQuizData()
    ensures DecodeQuizData([]) == None
  {
    assert Json.Parse([]) == None;
  }

  /** Empty text is not a stored answer list either. */
  lemma EmptyTextIsNoAnswers()
    ensures DecodeAnswers([]) == None
  {
    assert Json.Parse([]) == None;
  }

  /** Three entries that all read back are restored as read. */
  lemma LoadReadable(st: Storage, qs: seq<Question>, ua: seq<Option<string>>, score: int)
    requires QuizDataKey in st && UserAnswersKey in st && ScoreKey in st
    requires DecodeQuizData(st[QuizDataKey]) == Some(qs)
    requires DecodeAnswers(st[UserAnswersKey]) == Some(ua)
    requires Decimal.ParseInt(st[ScoreKey]) == Some(score)
    ensures Load(st) == Restored(qs, ua, score)
  {
    EmptyTextIsNoQuizData();
    EmptyTextIsNoAnswers();
  }

  /** Writing the results over a stored quiz makes start-up restore that
      quiz with the answers and score just written. */
  lemma LoadAfterResults(st: Storage, ua: seq<Option<string>>, score: int)
    requires QuizDataKey in st && DecodeQuizData(st[QuizDataKey]).Some?
    ensures Load(SaveResults(st, ua, score)) == Restored(DecodeQuizData(st[QuizDataKey]).value, ua, score)
  {
    var st2 := SaveResults(st, ua, score);
    assert QuizDataKey[0] != UserAnswersKey[0] && QuizDataKey[0] != ScoreKey[0];
    assert st2[QuizDataKey] == st[QuizDataKey];
    SavedResultsReadBack(st, ua, score);
    LoadReadable(st2, DecodeQuizData(st[QuizDataKey]).value, ua, score);
  }
}

=== FILE: questions.dfy ===
/** The question record shared by the server's parser and the browser quiz:
    `{question, options, answer, explanation}`. */
module Questions {
  import opened Common

  /** One multiple-choice question. The explanation may be absent in data the
      browser receives, so it is optional here. */
  datatype Question = Question(
    question: string,
    options: seq<string>,
    answer: string,
    explanation: Option<string>)

  /** `card.explanation || ""`: a missing or empty explanation reads as empty. */
  function ExplanationText(q: Question): string {
    match q.explanation
    case Some(e) => e
    case None => []
  }
}

=== FILE: scoring.dfy ===
/** Scoring and review of a finished quiz (`endQuiz`, `displayResults` and
    `displayReview` in static/script.js). */
module Scoring {
  import opened Common
  import opened Questions

  /** `userAnswers[i]`: entries past the end of the list read as `undefined`. */
  function AnswerAt(ua: seq<Option<string>>, i: nat): Option<string> {
    if i < |ua| then ua[i] else None
  }

  /** `quizData[i].answer === userAnswers[i]`. */
  predicate IsCorrectAt(qs: seq<Question>, ua: seq<Option<string>>, i: nat)
    requires i < |qs|
  {
    AnswerAt(ua, i) == Some(qs[i].answer)
  }

  /** Number of correctly answered questions among the first `n`. */
  function CountCorrectUpTo(qs: seq<Question>, ua: seq<Option<string>>, n: nat): (c: nat)
    requires n <= |qs|
    ensures c <= n
  {
    if n == 0 then 0
    else CountCorrectUpTo(qs, ua, n - 1) + (if IsCorrectAt(qs, ua, n - 1) then 1 else 0)
  }

  function CountCorrect(qs: seq<Question>, ua: seq<Option<string>>): nat {
    CountCorrectUpTo(qs, ua, |qs|)
  }

  /** Indices of the correctly answered questions. */
  function CorrectIndices(qs: seq<Question>, ua: seq<Option<string>>, n: nat): set<nat>
    requires n <= |qs|
  {
    set i: nat | i < n && IsCorrectAt(qs, ua, i)
  }

  /** The count is the number of indices `i` with
      `userAnswers[i] == quizData[i].answer`. */
  lemma {:induction false} CountIsCardinality(qs: seq<Question>, ua: seq<Option<string>>, n: nat)
    requires n <= |qs|
    ensures CountCorrectUpTo(qs, ua, n) == |CorrectIndices(qs, ua, n)|
  {
    if n == 0 {
      assert CorrectIndices(qs, ua, 0) == {};
    } else {
      CountIsCardinality(qs, ua, n - 1);
      CorrectIndicesStep(qs, ua, n);
    }
  }

  /** The recount loop of `endQuiz`. */
  method FinalScore(qs: seq<Question>, ua: seq<Option<string>>) returns (finalScore: nat)
    ensures finalScore == CountCorrect(qs, ua)
    ensures finalScore <= |qs|
  {
    finalScore := 0;
    var i := 0;
    while i < |qs|
      invariant i <= |qs|
      invariant finalScore == CountCorrectUpTo(qs, ua, i)
    {
      if AnswerAt(ua, i) == Some(qs[i].answer) {
        finalScore := finalScore + 1;
      }
      i := i + 1;
    }
  }

  /** Answers only change the count at the index written: recording an answer
      at an unanswered index `i` adds one exactly when it is the right one. */
  lemma {:induction false} CountAfterAnswer(qs: seq<Question>, ua: seq<Option<string>>, i: nat, a: string, n: nat)
    requires |ua| == |qs| && i < |qs| && n <= |qs|
    requires ua[i] == None
    ensures CountCorrectUpTo(qs, ua[i := Some(a)], n)
         == CountCorrectUpTo(qs, ua, n) + (if i < n && a == qs[i].answer then 1 else 0)
  {
    if n > 0 {
      CountAfterAnswer(qs, ua, i, a, n - 1);
    }
  }

  /** A quiz just started, with every answer missing, counts nothing. */
  lemma {:induction false} NothingAnsweredCountsZero(qs: seq<Question>, n: nat)
    requires n <= |qs|
    ensures CountCorrectUpTo(qs, Holes(|qs|), n) == 0
  {
    if n > 0 {
      NothingAnsweredCountsZero(qs, n - 1);
    }
  }

  /** The figures on the results page. */
  datatype Summary = Summary(total: nat, correct: int, incorrect: int)

  /** `displayResults`: nothing is shown for an empty quiz; otherwise the
      incorrect count is what remains of the total after the score. */
  function Results(qs: seq<Question>, score: int): (r: Option<Summary>)
    ensures r.None? <==> qs == []
    ensures r.Some? ==> r.value.total == |qs| && r.value.correct == score
    ensures r.Some? ==> r.value.correct + r.value.incorrect == r.value.total
  {
    if qs == [] then None else Some(Summary(|qs|, score, |qs| - score))
  }

  /** Indices of the questions answered wrongly or not at all. */
  function MissedIndices(qs: seq<Question>, ua: seq<Option<string>>, n: nat): set<nat>
    requires n <= |qs|
  {
    set i: nat | i < n && !IsCorrectAt(qs, ua, i)
  }

  /** Every index below `n` is either correct or missed, never both. */
  lemma {:induction false} SplitIndices(qs: seq<Question>, ua: seq<Option<string>>, n: nat)
    requires n <= |qs|
    ensures |CorrectIndices(qs, ua, n)| + |MissedIndices(qs, ua, n)| == n
  {
    if n == 0 {
      assert CorrectIndices(qs, ua, 0) == {} && MissedIndices(qs, ua, 0) == {};
    } else {
      SplitIndices(qs, ua, n - 1);
      CorrectIndicesStep(qs, ua, n);
      MissedIndicesStep(qs, ua, n);
    }
  }

  lemma CorrectIndicesStep(qs: seq<Question>, ua: seq<Option<string>>, n: nat)
    requires 0 < n <= |qs|
    ensures |CorrectIndices(qs, ua, n)|
         == |CorrectIndices(qs, ua, n - 1)| + (if IsCorrectAt(qs, ua, n - 1) then 1 else 0)
  {
    var prev := CorrectIndices(qs, ua, n - 1);
    if IsCorrectAt(qs, ua, n - 1) {
      assert CorrectIndices(qs, ua, n) == prev + {n - 1} && n - 1 !in prev;
    } else {
      assert CorrectIndices(qs, ua, n) == prev;
    }
  }

  lemma MissedIndicesStep(qs: seq<Question>, ua: seq<Option<string>>, n: nat)
    requires 0 < n <= |qs|
    ensures |MissedIndices(qs, ua, n)|
         == |MissedIndices(qs, ua, n - 1)| + (if IsCorrectAt(qs, ua, n - 1) then 0 else 1)
  {
    var prev := MissedIndices(qs, ua, n - 1);
    if IsCorrectAt(qs, ua, n - 1) {
      assert MissedIndices(qs, ua, n) == prev;
    } else {
      assert MissedIndices(qs, ua, n) == prev + {n - 1} && n - 1 !in prev;
    }
  }

  /** With the recounted score, the incorrect figure counts exactly the
      questions not answered correctly (wrong or never answered). */
  lemma ResultsOfRecount(qs: seq<Question>, ua: seq<Option<string>>)
    requires qs != []
    ensures Results(qs, CountCorrect(qs, ua)).Some?
    ensures var s := Results(qs, CountCorrect(qs, ua)).value;
      0 <= s.incorrect <= s.total && s.incorrect == |MissedIndices(qs, ua, |qs|)|
  {
    CountIsCardinality(qs, ua, |qs|);
    SplitIndices(qs, ua, |qs|);
  }

  // ---------------------------------------------------------------------
  // Review

  const NotAnswered: string := "Not Answered"

  /** `userAnswers[index] || "Not Answered"`: every falsy entry (never
      answered, `null` after a reload, or the empty string) shows as not
      answered. */
  function ShownAnswer(a: Option<string>): string {
    if a.Some? && a.value != [] then a.value else NotAnswered
  }

  /** One review entry: question number and text, the answer shown for the
      user, whether it is marked correct, the correct answer, the explanation. */
  datatype Verdict = Verdict(
    number: nat,
    question: string,
    shown: string,
    isCorrect: bool,
    correctAnswer: string,
    explanation: Option<string>)

  function VerdictAt(qs: seq<Question>, ua: seq<Option<string>>, i: nat): Verdict
    requires i < |qs|
  {
    var shown := ShownAnswer(AnswerAt(ua, i));
    Verdict(i + 1, qs[i].question, shown, shown == qs[i].answer, qs[i].answer, qs[i].explanation)
  }

  /** `displayReview`: one entry per question, in quiz order. A missing or
      empty answer shows as "Not Answered", any other answer shows as given,
      and an entry is marked correct exactly when the text shown is the
      correct answer; away from the two answers "" and "Not Answered" that is
      exactly when the score counted it. */
  function Review(qs: seq<Question>, ua: seq<Option<string>>): (r: seq<Verdict>)
    ensures |r| == |qs|
    ensures forall i :: 0 <= i < |qs| ==>
      && r[i].number == i + 1 && r[i].question == qs[i].question
      && r[i].correctAnswer == qs[i].answer && r[i].explanation == qs[i].explanation
    ensures forall i :: 0 <= i < |qs| && (AnswerAt(ua, i).None? || AnswerAt(ua, i) == Some([])) ==>
      r[i].shown == NotAnswered
    ensures forall i :: 0 <= i < |qs| && AnswerAt(ua, i).Some? && AnswerAt(ua, i).value != [] ==>
      r[i].shown == AnswerAt(ua, i).value
    ensures forall i :: 0 <= i < |qs| ==> (r[i].isCorrect <==> r[i].shown == qs[i].answer)
    ensures forall i :: 0 <= i < |qs| && qs[i].answer != [] && qs[i].answer != NotAnswered ==>
      (r[i].isCorrect <==> IsCorrectAt(qs, ua, i))
  {
    seq(|qs|, i requires 0 <= i < |qs| => VerdictAt(qs, ua, i))
  }

  /** The review agrees with the score on every question whose correct answer
      is neither empty nor the text "Not Answered". */
  lemma ReviewAgreesWithScore(qs: seq<Question>, ua: seq<Option<string>>, i: nat)
    requires i < |qs|
    requires qs[i].answer != [] && qs[i].answer != NotAnswered
    ensures Review(qs, ua)[i].isCorrect <==> IsCorrectAt(qs, ua, i)
  {
  }

  /** Where the two disagree: a question left unanswered whose correct option
      reads "Not Answered" is marked correct in the review but not counted. */
  lemma ReviewDisagreesOnNotAnsweredOption(qs: seq<Question>, ua: seq<Option<string>>, i: nat)
    requires i < |qs| && qs[i].answer == NotAnswered && AnswerAt(ua, i).None?
    ensures Review(qs, ua)[i].isCorrect && !IsCorrectAt(qs, ua, i)
  {
  }
}

=== FILE: session.dfy ===
/** The quiz wizard of static/script.js: the five steps, the state the
    event handlers share, and every handler as a transition on that state.
    Each control sits on one step's panel and only the active panel is
    shown, so an event arriving on another step changes nothing. Timers
    (`setTimeout`, the clock) are collapsed: what a handler schedules
    happens at once. */
module Session {
  import opened Common
  import opened Questions
  import Scoring
  import Persistence

  /** The wizard panels, in `showStep` order 0 to 4. */
  datatype Step = Upload | Configure | InQuiz | Results | Flashcards

  datatype State = State(
    step: Step,
    quizData: seq<Question>,
    userAnswers: seq<Option<string>>,
    currentQuestionIndex: nat,
    score: int,
    currentCardIndex: nat,
    fileSelected: bool,
    errorMessage: string,
    storage: Persistence.Storage)

  /** How the `/generate-quiz` request ends: a success body with its question
      list, an error status with the body's optional `error` text, or an
      exception from `fetch` or from reading the body, with its message. */
  datatype Reply =
    | Generated(questions: seq<Question>)
    | Refused(error: Option<string>)
    | Failed(message: string)

  datatype Event =
    | FileChosen(selected: bool)
    | BackToUpload
    | Submit(reply: Reply)
    | NextQuestion
    | PrevQuestion
    | SelectOption(option: nat)
    | Restart
    | ViewFlashcards
    | BackToResults
    | NextCard
    | PrevCard

  const NoFileMessage: string := "Please go back and select a PDF file."
  const UnknownServerError: string := "An unknown server error occurred."
  const NoQuizMessage: string := "Failed to generate a valid quiz from the document."

  // ---------------------------------------------------------------------
  // Start-up

  /** The page as first shown: nothing loaded, upload panel. */
  function Fresh(st: Persistence.Storage): State {
    State(Upload, [], [], 0, 0, 0, false, [], st)
  }

  /** The results panel over a quiz read back from storage. */
  function Reopened(qs: seq<Question>, ua: seq<Option<string>>, score: int, st: Persistence.Storage): State {
    State(Results, qs, ua, 0, score, 0, false, [], st)
  }

  /** `initializeApp`: with all three entries saved, the results panel over
      what they hold; otherwise the upload panel. `None` is the start-up the
      model does not follow: an entry that is not JSON (the code does not
      catch the exception `JSON.parse` throws), JSON of another shape than a
      question list or an answer list, or a score that is not a number. */
  function Init(st: Persistence.Storage): (r: Option<State>)
    ensures r.None? <==> Persistence.Load(st).Unreadable?
    ensures r.Some? ==> r.value.storage == st
    ensures r.Some? && r.value.step == Upload <==> !Persistence.HasSavedQuiz(st)
    ensures r.Some? && r.value.step == Results ==>
      Persistence.Load(st) == Persistence.Restored(r.value.quizData, r.value.userAnswers, r.value.score)
    ensures r.Some? ==> r.value.step == if Persistence.HasSavedQuiz(st) then Results else Upload
    ensures Persistence.Load(st).Restored? ==> r.Some? && r.value.step == Results
    ensures r.Some? && r.value.step == Upload ==>
      r.value.quizData == [] && r.value.userAnswers == [] && r.value.score == 0
    ensures r.Some? ==>
      (&& r.value.currentQuestionIndex == 0 && r.value.currentCardIndex == 0
       && !r.value.fileSelected && r.value.errorMessage == [])
  {
    match Persistence.Load(st)
    case NothingSaved => Some(Fresh(st))
    case Restored(qs, ua, score) => Some(Reopened(qs, ua, score, st))
    case Unreadable => None
  }

  // ---------------------------------------------------------------------
  // Handlers

  /** `error.message` of the exception thrown for an error status:
      `data.error`, or the fallback text when it is missing or empty. */
  function RefusalMessage(error: Option<string>): (m: string)
    ensures m != []
    ensures error.Some? && error.value != [] ==> m == error.value
  {
    if error.Some? && error.value != [] then error.value else UnknownServerError
  }

  /** `startQuiz`, after `resetState`: all answers missing, first question,
      score zero, error line cleared, quiz panel. */
  function StartQuiz(s: State): State {
    s.(step := InQuiz, userAnswers := Holes(|s.quizData|), currentQuestionIndex := 0,
       score := 0, errorMessage := [])
  }

  /** The config form's submit handler, given how the request ended. The
      question list is written to storage before the emptiness test, so an
      empty list is saved too. */
  function SubmitForm(s: State, reply: Reply): State {
    if !s.fileSelected then s.(errorMessage := NoFileMessage)
    else
      match reply
      case Refused(e) => s.(errorMessage := "Error: " + RefusalMessage(e), step := Configure)
      case Failed(m) => s.(errorMessage := "Error: " + m, step := Configure)
      case Generated(qs) =>
        var loaded := s.(quizData := qs, userAnswers := Holes(|qs|),
                         storage := Persistence.SaveQuizData(s.storage, qs), errorMessage := []);
        if |qs| > 0 then StartQuiz(loaded)
        else loaded.(errorMessage := NoQuizMessage, step := Configure)
  }

  /** `endQuiz`: the score is recounted from the answers, answers and score
      are saved, and the results panel is shown. */
  function EndQuiz(s: State): State {
    var finalScore := Scoring.CountCorrect(s.quizData, s.userAnswers);
    s.(step := Results, score := finalScore,
       storage := Persistence.SaveResults(s.storage, s.userAnswers, finalScore))
  }

  /** The next button: the following question, or the end of the quiz on
      the last one. */
  function Next(s: State): State {
    if s.currentQuestionIndex + 1 < |s.quizData| then
      s.(currentQuestionIndex := s.currentQuestionIndex + 1)
    else EndQuiz(s)
  }

  /** The previous button: nothing on the first question. */
  function Prev(s: State): State {
    if s.currentQuestionIndex > 0 then s.(currentQuestionIndex := s.currentQuestionIndex - 1)
    else s
  }

  /** `userAnswers[i] = a` on a JavaScript array: writing past the end
      extends it, leaving holes. */
  function Store(ua: seq<Option<string>>, i: nat, a: string): (r: seq<Option<string>>)
    ensures |r| == if i < |ua| then |ua| else i + 1
    ensures r[i] == Some(a)
    ensures forall j :: 0 <= j < |r| && j != i ==> Scoring.AnswerAt(r, j) == Scoring.AnswerAt(ua, j)
  {
    if i < |ua| then ua[i := Some(a)] else ua + Holes(i - |ua|) + [Some(a)]
  }

  /** `handleOptionSelect`. The option buttons of the current question only
      carry a handler while it is unanswered, and they are disabled once an
      answer is chosen; choosing an answer records it and adds one to the
      score when it is the right one. */
  function Select(s: State, k: nat): State {
    var i := s.currentQuestionIndex;
    if i < |s.quizData| && Scoring.AnswerAt(s.userAnswers, i).None? && k < |s.quizData[i].options| then
      var choice := s.quizData[i].options[k];
      s.(userAnswers := Store(s.userAnswers, i, choice),
         score := s.score + (if choice == s.quizData[i].answer then 1 else 0))
    else s
  }

  /** The restart button: the three entries are removed, the quiz state is
      reset and the upload panel shown. The question list in memory is kept. */
  function RestartQuiz(s: State): State {
    s.(step := Upload, storage := Persistence.Clear(s.storage), userAnswers := [],
       currentQuestionIndex := 0, score := 0, errorMessage := [], fileSelected := false)
  }

  /** The next-card button: the following card, wrapping to the first. */
  function NextCardIndex(i: nat, n: nat): (r: nat)
    requires n > 0
    ensures r < n
    ensures i < n ==> r == if i + 1 < n then i + 1 else 0
  {
    assert i < n ==> (i + 1) % n == if i + 1 < n then i + 1 else 0 by {
      if i < n { ModOnce(i + 1, n); }
    }
    (i + 1) % n
  }

  /** The previous-card button: the card before, wrapping to the last. */
  function PrevCardIndex(i: nat, n: nat): (r: nat)
    requires n > 0
    ensures r < n
    ensures i < n ==> r == if i > 0 then i - 1 else n - 1
  {
    assert i < n ==> (i + n - 1) % n == if i > 0 then i - 1 else n - 1 by {
      if i < n { ModOnce(i + n - 1, n); }
    }
    (i + n - 1) % n
  }

  /** What one event does to the state. */
  function Apply(s: State, e: Event): State {
    match e
    case FileChosen(selected) =>
      if s.step != Upload then s
      else if selected then s.(fileSelected := true, step := Configure)
      else s.(fileSelected := false)
    case BackToUpload =>
      if s.step != Configure then s else s.(step := Upload, fileSelected := false)
    case Submit(reply) =>
      if s.step != Configure then s else SubmitForm(s, reply)
    case NextQuestion =>
      if s.step != InQuiz then s else Next(s)
    case PrevQuestion =>
      if s.step != InQuiz then s else Prev(s)
    case SelectOption(k) =>
      if s.step != InQuiz then s else Select(s, k)
    case Restart =>
      if s.step != Results then s else RestartQuiz(s)
    case ViewFlashcards =>
      if s.step != Results then s else s.(step := Flashcards, currentCardIndex := 0)
    case BackToResults =>
      if s.step != Flashcards then s else s.(step := Results)
    case NextCard =>
      if s.step != Flashcards || |s.quizData| == 0 then s
      else s.(currentCardIndex := NextCardIndex(s.currentCardIndex, |s.quizData|))
    case PrevCard =>
      if s.step != Flashcards || |s.quizData| == 0 then s
      else s.(currentCardIndex := PrevCardIndex(s.currentCardIndex, |s.quizData|))
  }

  /** A sequence of events, in order. */
  function Run(s: State, es: seq<Event>): State
    decreases |es|
  {
    if es == [] then s else Run(Apply(s, es[0]), es[1..])
  }

  // ---------------------------------------------------------------------
  // The invariant

  /** During a quiz: a question is on screen, there is one answer slot per
      question, the running score is the number of right answers so far,
      and storage holds the question list. */
  predicate QuizOk(s: State) {
    && 0 < |s.quizData|
    && s.currentQuestionIndex < |s.quizData|
    && |s.userAnswers| == |s.quizData|
    && s.score == Scoring.CountCorrect(s.quizData, s.userAnswers)
    && Persistence.QuizDataKey in s.storage
    && Persistence.DecodeQuizData(s.storage[Persistence.QuizDataKey]) == Some(s.quizData)
  }

  /** On the results and flashcard panels, storage holds exactly what is on
      screen, so a reload shows the same results. */
  predicate SavedOk(s: State) {
    Persistence.Load(s.storage) == Persistence.Restored(s.quizData, s.userAnswers, s.score)
  }

  /** The flashcard index names a card, or is 0 when there are none. */
  predicate CardOk(s: State) {
    s.currentCardIndex < |s.quizData| || (|s.quizData| == 0 && s.currentCardIndex == 0)
  }

  predicate Valid(s: State) {
    && (s.step == InQuiz ==> QuizOk(s))
    && (s.step == Results ==> SavedOk(s))
    && (s.step == Flashcards ==> SavedOk(s) && CardOk(s))
  }

  // ---------------------------------------------------------------------
  // The invariant holds at start-up and after every event

  lemma InitValid(st: Persistence.Storage)
    requires Init(st).Some?
    ensures Valid(Init(st).value)
  {
  }

  lemma StartQuizValid(s: State)
    requires 0 < |s.quizData|
    requires Persistence.QuizDataKey in s.storage
    requires Persistence.DecodeQuizData(s.storage[Persistence.QuizDataKey]) == Some(s.quizData)
    ensures QuizOk(StartQuiz(s))
    ensures StartQuiz(s).score == 0 && StartQuiz(s).currentQuestionIndex == 0
    ensures forall i :: 0 <= i < |s.quizData| ==> StartQuiz(s).userAnswers[i] == None
  {
    Scoring.NothingAnsweredCountsZero(s.quizData, |s.quizData|);
  }

  lemma SubmitValid(s: State, reply: Reply)
    requires s.step == Configure
    ensures Valid(SubmitForm(s, reply))
  {
    if s.fileSelected && reply.Generated? && |reply.questions| > 0 {
      var qs := reply.questions;
      var loaded := s.(quizData := qs, userAnswers := Holes(|qs|),
                       storage := Persistence.SaveQuizData(s.storage, qs), errorMessage := []);
      Persistence.SavedQuizDataReadsBack(s.storage, qs);
      StartQuizValid(loaded);
    }
  }

  lemma EndQuizValid(s: State)
    requires s.step == InQuiz && QuizOk(s)
    ensures Valid(EndQuiz(s))
  {
    var n := Scoring.CountCorrect(s.quizData, s.userAnswers);
    Persistence.LoadAfterResults(s.storage, s.userAnswers, n);
  }

  lemma SelectValid(s: State, k: nat)
    requires s.step == InQuiz && QuizOk(s)
    ensures QuizOk(Select(s, k))
  {
    var i := s.currentQuestionIndex;
    if Scoring.AnswerAt(s.userAnswers, i).None? && k < |s.quizData[i].options| {
      var choice := s.quizData[i].options[k];
      assert Store(s.userAnswers, i, choice) == s.userAnswers[i := Some(choice)];
      Scoring.CountAfterAnswer(s.quizData, s.userAnswers, i, choice, |s.quizData|);
    }
  }

  /** Every event keeps the invariant. */
  lemma ApplyValid(s: State, e: Event)
    requires Valid(s)
    ensures Valid(Apply(s, e))
  {
    match e
    case Submit(reply) => SubmitEventValid(s, reply);
    case NextQuestion => NextQuestionValid(s);
    case SelectOption(k) => SelectOptionValid(s, k);
    case Restart => RestartValid(s);
    case FileChosen(_) => QuietValid(s, e);
    case BackToUpload => QuietValid(s, e);
    case PrevQuestion => QuietValid(s, e);
    case ViewFlashcards => QuietValid(s, e);
    case BackToResults => QuietValid(s, e);
    case NextCard => QuietValid(s, e);
    case PrevCard => QuietValid(s, e);
  }

  lemma SubmitEventValid(s: State, reply: Reply)
    requires Valid(s)
    ensures Valid(Apply(s, Submit(reply)))
  {
    if s.step == Configure {
      SubmitValid(s, reply);
    }
  }

  lemma NextQuestionValid(s: State)
    requires Valid(s)
    ensures Valid(Apply(s, NextQuestion))
  {
    if s.step == InQuiz && s.currentQuestionIndex + 1 >= |s.quizData| {
      EndQuizValid(s);
    }
  }

  lemma SelectOptionValid(s: State, k: nat)
    requires Valid(s)
    ensures Valid(Apply(s, SelectOption(k)))
  {
    if s.step == InQuiz {
      SelectValid(s, k);
    }
  }

  lemma RestartValid(s: State)
    requires Valid(s)
    ensures Valid(Apply(s, Restart))
  {
    RestartStep(s);
  }

  /** The restart button either does nothing or shows the upload panel. */
  lemma RestartStep(s: State)
    ensures Apply(s, Restart) == s || Apply(s, Restart).step == Upload
  {
  }

  /** The events that change neither the quiz, the answers, the score nor
      storage: only the panel or an index moves. */
  predicate Quiet(e: Event) {
    || e.FileChosen? || e.BackToUpload? || e.PrevQuestion?
    || e.ViewFlashcards? || e.BackToResults? || e.NextCard? || e.PrevCard?
  }

  lemma QuietValid(s: State, e: Event)
    requires Valid(s) && Quiet(e)
    ensures Valid(Apply(s, e))
  {
    QuietKeepsData(s, e);
    ValidAfter(s, Apply(s, e));
  }

  /** What a quiet event keeps: the data, a question index in range, the
      results on screen, and a card index naming a card. */
  lemma QuietKeepsData(s: State, e: Event)
    requires Quiet(e)
    requires s.step == InQuiz ==> s.currentQuestionIndex < |s.quizData|
    requires s.step == Flashcards ==> CardOk(s)
    ensures var t := Apply(s, e);
      && t.storage == s.storage && t.quizData == s.quizData
      && t.userAnswers == s.userAnswers && t.score == s.score
      && (t.step == InQuiz ==> s.step == InQuiz && t.currentQuestionIndex < |t.quizData|)
      && (t.step == Results || t.step == Flashcards ==> s.step == Results || s.step == Flashcards)
      && (t.step == Flashcards ==> CardOk(t))
  {
  }

  /** A state with the same data as a valid one, on a panel whose demands
      that data already met, is valid. */
  lemma ValidAfter(s: State, t: State)
    requires Valid(s)
    requires t.storage == s.storage && t.quizData == s.quizData
    requires t.userAnswers == s.userAnswers && t.score == s.score
    requires t.step == InQuiz ==> s.step == InQuiz && t.currentQuestionIndex < |t.quizData|
    requires t.step == Results || t.step == Flashcards ==> s.step == Results || s.step == Flashcards
    requires t.step == Flashcards ==> CardOk(t)
    ensures Valid(t)
  {
  }

  /** Every state the page can reach from start-up satisfies the invariant. */
  lemma {:induction false} RunValid(s: State, es: seq<Event>)
    requires Valid(s)
    ensures Valid(Run(s, es))
    decreases |es|
  {
    if es != [] {
      ApplyValid(s, es[0]);
      RunValid(Apply(s, es[0]), es[1..]);
    }
  }

  // ---------------------------------------------------------------------
  // Properties of the handlers

  /** The recount at the end of a quiz gives the running score back: an
      answer is never overwritten, so the running count never drifts. */
  lemma RecountKeepsScore(s: State)
    requires Valid(s) && s.step == InQuiz
    ensures EndQuiz(s).score == s.score
  {
  }

  /** On the last question the next button ends the quiz; storage then holds
      the recounted score and the answers. */
  lemma NextOnLastQuestionEnds(s: State)
    requires s.step == InQuiz && QuizOk(s) && s.currentQuestionIndex == |s.quizData| - 1
    ensures Apply(s, NextQuestion).step == Results
    ensures Apply(s, NextQuestion).score == s.score
    ensures Persistence.Load(Apply(s, NextQuestion).storage)
         == Persistence.Restored(s.quizData, s.userAnswers, s.score)
  {
    var t := Apply(s, NextQuestion);
    assert t == EndQuiz(s);
    Persistence.LoadAfterResults(s.storage, s.userAnswers, s.score);
  }

  /** Once a question is answered, no event of the quiz panel changes that
      answer. */
  lemma AnswerIsFinal(s: State, e: Event, i: nat)
    requires s.step == InQuiz
    requires i < |s.userAnswers| && s.userAnswers[i].Some?
    ensures Apply(s, e).userAnswers[i] == s.userAnswers[i]
  {
  }

  /** Choosing an option on an unanswered question records exactly that
      option there and nothing else, and the score grows by one exactly when
      it is the right answer. */
  lemma SelectRecordsAnswer(s: State, k: nat)
    requires s.step == InQuiz && s.currentQuestionIndex < |s.quizData| == |s.userAnswers|
    requires s.userAnswers[s.currentQuestionIndex].None?
    requires k < |s.quizData[s.currentQuestionIndex].options|
    ensures var t := Apply(s, SelectOption(k));
      var i := s.currentQuestionIndex;
      && t.userAnswers[i] == Some(s.quizData[i].options[k])
      && (forall j :: 0 <= j < |s.userAnswers| && j != i ==> t.userAnswers[j] == s.userAnswers[j])
      && |t.userAnswers| == |s.userAnswers|
      && (t.score == s.score + 1 <==> s.quizData[i].options[k] == s.quizData[i].answer)
      && (t.score == s.score <==> s.quizData[i].options[k] != s.quizData[i].answer)
      && t.step == InQuiz && t.currentQuestionIndex == i && t.quizData == s.quizData
  {
  }

  /** A second choice on an answered question does nothing. */
  lemma SelectTwiceIgnored(s: State, k: nat)
    requires s.step == InQuiz && s.currentQuestionIndex < |s.userAnswers|
    requires s.userAnswers[s.currentQuestionIndex].Some?
    ensures Apply(s, SelectOption(k)) == s
  {
  }

  /** Previous undoes next, away from the last question. */
  lemma PrevUndoesNext(s: State)
    requires s.step == InQuiz && s.currentQuestionIndex + 1 < |s.quizData|
    ensures Apply(Apply(s, NextQuestion), PrevQuestion) == s
  {
  }

  /** Next undoes previous, away from the first question. */
  lemma NextUndoesPrev(s: State)
    requires s.step == InQuiz && 0 < s.currentQuestionIndex < |s.quizData|
    ensures Apply(Apply(s, PrevQuestion), NextQuestion) == s
  {
  }

  /** The question index never leaves the quiz, whatever is clicked. */
  lemma QuestionIndexInRange(s: State, e: Event)
    requires Valid(s) && s.step == InQuiz
    ensures var t := Apply(s, e);
      t.step == InQuiz ==> t.currentQuestionIndex < |t.quizData|
  {
    ApplyValid(s, e);
  }

  /** The next button moves one question on while one is left, and otherwise
      ends the quiz; the previous button does nothing on the first question. */
  lemma NextAndPrevMoves(s: State)
    requires s.step == InQuiz
    ensures var i := s.currentQuestionIndex;
      && (i + 1 < |s.quizData| ==> Apply(s, NextQuestion) == s.(currentQuestionIndex := i + 1))
      && (i + 1 >= |s.quizData| ==> Apply(s, NextQuestion) == EndQuiz(s))
      && (i > 0 ==> Apply(s, PrevQuestion) == s.(currentQuestionIndex := i - 1))
      && (i == 0 ==> Apply(s, PrevQuestion) == s)
  {
  }

  /** Opening the flashcards shows the first card. */
  lemma ViewFlashcardsShowsFirstCard(s: State)
    requires s.step == Results
    ensures var t := Apply(s, ViewFlashcards);
      t.step == Flashcards && t.currentCardIndex == 0 && CardOk(t)
      && t.quizData == s.quizData && t.storage == s.storage
  {
  }

  /** Without cards the card buttons do nothing. */
  lemma NoCardsNoMoves(s: State)
    requires s.step == Flashcards && |s.quizData| == 0
    ensures Apply(s, NextCard) == s && Apply(s, PrevCard) == s
  {
  }

  /** `%` on the values the card buttons produce, which lie below twice the
      number of cards. */
  lemma ModOnce(x: nat, n: nat)
    requires 0 < n && x < 2 * n
    ensures x % n == if x < n then x else x - n
  {
    if x < n {
      assert x / n == 0;
    } else {
      assert x / n == 1;
    }
  }

  /** The wrap-around steps undo each other on every card index. */
  lemma PrevAfterNextCard(i: nat, n: nat)
    requires i < n
    ensures PrevCardIndex(NextCardIndex(i, n), n) == i
  {
  }

  lemma NextAfterPrevCard(i: nat, n: nat)
    requires i < n
    ensures NextCardIndex(PrevCardIndex(i, n), n) == i
  {
  }

  /** The two card buttons undo each other. */
  lemma PrevCardUndoesNextCard(s: State)
    requires s.step == Flashcards && CardOk(s)
    ensures Apply(Apply(s, NextCard), PrevCard) == s
  {
    if |s.quizData| > 0 {
      PrevAfterNextCard(s.currentCardIndex, |s.quizData|);
    }
  }

  lemma NextCardUndoesPrevCard(s: State)
    requires s.step == Flashcards && CardOk(s)
    ensures Apply(Apply(s, PrevCard), NextCard) == s
  {
    if |s.quizData| > 0 {
      NextAfterPrevCard(s.currentCardIndex, |s.quizData|);
    }
  }

  /** What the results panel shows is what a reload restores. */
  lemma ReloadShowsSameResults(s: State)
    requires Valid(s) && (s.step == Results || s.step == Flashcards)
    ensures Init(s.storage) == Some(Reopened(s.quizData, s.userAnswers, s.score, s.storage))
  {
  }

  /** After a restart a reload starts from an empty upload panel, although
      the question list stays in memory until the next upload. */
  lemma RestartForgetsStorage(s: State)
    requires s.step == Results
    ensures var t := Apply(s, Restart);
      && t.step == Upload && !t.fileSelected
      && t.quizData == s.quizData
      && t.userAnswers == [] && t.score == 0 && t.currentQuestionIndex == 0
      && Init(t.storage) == Some(Fresh(t.storage))
  {
    Persistence.LoadAfterClear(s.storage);
  }

  /** Submitting with no file only shows the hint to go back. */
  lemma SubmitWithoutFile(s: State, reply: Reply)
    requires s.step == Configure && !s.fileSelected
    ensures Apply(s, Submit(reply)) == s.(errorMessage := NoFileMessage)
  {
  }

  /** A failed request leaves the panel on the form with the error shown. */
  lemma SubmitFailureStays(s: State, reply: Reply)
    requires s.step == Configure && s.fileSelected && !reply.Generated?
    ensures var t := Apply(s, Submit(reply));
      && t.step == Configure && t.quizData == s.quizData && t.storage == s.storage
      && StartsWith(t.errorMessage, "Error: ")
  {
  }

  /** An empty question list is still written to storage before the form
      reports the failure. */
  lemma EmptyQuizStillSaved(s: State)
    requires s.step == Configure && s.fileSelected
    ensures var t := Apply(s, Submit(Generated([])));
      && t.step == Configure && t.errorMessage == NoQuizMessage
      && Persistence.QuizDataKey in t.storage
      && Persistence.DecodeQuizData(t.storage[Persistence.QuizDataKey]) == Some([])
  {
    Persistence.SavedQuizDataReadsBack(s.storage, []);
  }

  /** A non-empty question list starts the quiz on its first question with
      nothing answered. */
  lemma SubmitStartsQuiz(s: State, qs: seq<Question>)
    requires s.step == Configure && s.fileSelected && qs != []
    ensures var t := Apply(s, Submit(Generated(qs)));
      && t.step == InQuiz && t.quizData == qs && t.currentQuestionIndex == 0
      && t.score == 0 && t.errorMessage == []
      && (forall i :: 0 <= i < |qs| ==> t.userAnswers[i] == None)
      && QuizOk(t)
  {
    SubmitValid(s, Generated(qs));
  }
}

=== FILE: text.dfy ===
/** Character classes and string cleaning as Python's `str` methods do them:
    `strip`, `lower`, `upper`. */
module Text {

  /** Python's `str.isspace`: the characters `str.strip()` removes and that a
      Python regular expression's `\s` matches. */
  predicate IsSpace(c: char) {
    ('\t' <= c <= '\r') || ('\U{1C}' <= c <= '\U{1F}') || c == ' '
    || c == '\U{85}' || c == '\U{A0}' || c == '\U{1680}'
    || ('\U{2000}' <= c <= '\U{200A}') || c == '\U{2028}' || c == '\U{2029}'
    || c == '\U{202F}' || c == '\U{205F}' || c == '\U{3000}'
  }

  predicate AllSpace(s: string) {
    forall k :: 0 <= k < |s| ==> IsSpace(s[k])
  }

  /** Neither end of `s` is white space: what `strip` leaves behind. */
  predicate Trimmed(s: string) {
    s == [] || (!IsSpace(s[0]) && !IsSpace(s[|s| - 1]))
  }

  /** Python's `str.lstrip()`. */
  function LStrip(s: string): (r: string)
    ensures |r| <= |s|
    ensures r == [] || !IsSpace(r[0])
  {
    if |s| > 0 && IsSpace(s[0]) then LStrip(s[1..]) else s
  }

  /** `lstrip` removes a white-space prefix and nothing else. */
  lemma {:induction false} LStripIsSuffix(s: string)
    ensures var r := LStrip(s); r == s[|s| - |r|..] && AllSpace(s[..|s| - |r|])
  {
    if |s| > 0 && IsSpace(s[0]) {
      LStripIsSuffix(s[1..]);
    }
  }

  /** Python's `str.rstrip()`. */
  function RStrip(s: string): (r: string)
    ensures |r| <= |s|
    ensures r == [] || !IsSpace(r[|r| - 1])
  {
    if |s| > 0 && IsSpace(s[|s| - 1]) then RStrip(s[..|s| - 1]) else s
  }

  /** `rstrip` removes a white-space suffix and nothing else. */
  lemma {:induction false} RStripIsPrefix(s: string)
    ensures var r := RStrip(s); r == s[..|r|] && AllSpace(s[|r|..])
  {
    if |s| > 0 && IsSpace(s[|s| - 1]) {
      RStripIsPrefix(s[..|s| - 1]);
      var r := RStrip(s);
      assert s[|r|..] == s[..|s| - 1][|r|..] + [s[|s| - 1]];
    }
  }

  /** Python's `str.strip()`: the text without white space at either end
      (`StripIsInfix` says where the result sits in `s`). */
  function Strip(s: string): (r: string)
    ensures |r| <= |s| && Trimmed(r)
  {
    RStripIsPrefix(LStrip(s));
    RStrip(LStrip(s))
  }

  /** `s` is the result of `strip` padded on both sides by white space. */
  lemma StripIsInfix(s: string)
    ensures var r := Strip(s); var i := |s| - |LStrip(s)|;
      i + |r| <= |s| && r == s[i..i + |r|] && AllSpace(s[..i]) && AllSpace(s[i + |r|..])
  {
    var l := LStrip(s);
    LStripIsSuffix(s);
    RStripIsPrefix(l);
    InfixOfSuffix(s, l, Strip(s), |s| - |l|);
  }

  /** A prefix `r` of the suffix `l` of `s` sits in `s` right where `l`
      starts, and what follows it in `s` is what follows it in `l`. */
  lemma InfixOfSuffix(s: string, l: string, r: string, i: nat)
    requires i <= |s| && l == s[i..] && |r| <= |l| && r == l[..|r|]
    requires AllSpace(s[..i]) && AllSpace(l[|r|..])
    ensures i + |r| <= |s| && r == s[i..i + |r|] && AllSpace(s[..i]) && AllSpace(s[i + |r|..])
  {
    assert s[i + |r|..] == l[|r|..];
  }

  /** Stripping a white-space padding off an already trimmed text gives the
      text back: `strip` is determined by the two properties of its contract. */
  lemma {:induction false} StripPadded(a: string, t: string, b: string)
    requires AllSpace(a) && AllSpace(b) && Trimmed(t)
    ensures Strip(a + t + b) == t
  {
    if t == [] {
      assert a + t + b == (a + b) + [];
      LStripPadded(a + b, []);
    } else {
      assert a + t + b == a + (t + b);
      LStripPadded(a, t + b);
      RStripPadded(t, b);
    }
  }

  lemma {:induction false} LStripPadded(a: string, u: string)
    requires AllSpace(a) && (u == [] || !IsSpace(u[0]))
    ensures LStrip(a + u) == u
  {
    if a != [] {
      assert (a + u)[1..] == a[1..] + u;
      LStripPadded(a[1..], u);
    }
  }

  lemma {:induction false} RStripPadded(t: string, b: string)
    requires AllSpace(b) && (t == [] || !IsSpace(t[|t| - 1]))
    ensures RStrip(t + b) == t
  {
    if b != [] {
      assert (t + b)[..|t + b| - 1] == t + b[..|b| - 1];
      RStripPadded(t, b[..|b| - 1]);
    } else {
      assert t + b == t;
    }
  }

  /** `strip` is idempotent. */
  lemma StripIdempotent(s: string)
    ensures Strip(Strip(s)) == Strip(s)
  {
    StripPadded([], Strip(s), []);
    assert [] + Strip(s) + [] == Strip(s);
  }

  function LowerChar(c: char): (d: char)
    ensures 'A' <= c <= 'Z' ==> d as int == c as int + 32
    ensures !('A' <= c <= 'Z') ==> d == c
  {
    if 'A' <= c <= 'Z' then (c as int + 32) as char else c
  }

  function UpperChar(c: char): (d: char)
    ensures 'a' <= c <= 'z' ==> d as int == c as int - 32
    ensures !('a' <= c <= 'z') ==> d == c
  {
    if 'a' <= c <= 'z' then (c as int - 32) as char else c
  }

  /** `str.lower()` restricted to the ASCII letters. */
  function Lower(s: string): (r: string)
    ensures |r| == |s|
    ensures forall k :: 0 <= k < |s| ==> r[k] == LowerChar(s[k])
  {
    if s == [] then [] else [LowerChar(s[0])] + Lower(s[1..])
  }

  /** `str.upper()` restricted to the ASCII letters. */
  function Upper(s: string): (r: string)
    ensures |r| == |s|
    ensures forall k :: 0 <= k < |s| ==> r[k] == UpperChar(s[k])
  {
    if s == [] then [] else [UpperChar(s[0])] + Upper(s[1..])
  }

  /** ASCII case-insensitive prefix test, as `s.lower().startswith(p)` for a
      lower-case `p`, or a regular expression with IGNORECASE anchored at `^`. */
  predicate StartsWithIgnoringCase(s: string, p: string) {
    |p| <= |s| && Lower(s[..|p|]) == Lower(p)
  }

  predicate IsDigit(c: char) {
    '0' <= c <= '9'
  }
}

=== FILE: timer.dfy ===
/** The quiz clock's text (`startTimer` in static/script.js): elapsed seconds
    shown as `MM:SS`. The one-second tick itself is a browser timer and is not
    modelled; only the text drawn for a given count of seconds is. */
module Timer {
  import Decimal

  /** Digits, a colon, and exactly two digits. */
  predicate ClockShape(r: string) {
    && |r| >= 4 && r[|r| - 3] == ':'
    && Decimal.AllDigits(r[..|r| - 3]) && Decimal.AllDigits(r[|r| - 2..])
  }

  /** The time a `MM:SS` text reads as, in seconds. */
  function ClockSeconds(r: string): int
    requires ClockShape(r)
  {
    Decimal.DigitsValue(r[..|r| - 3]) * 60 + Decimal.DigitsValue(r[|r| - 2..])
  }

  /** The seconds field of a `MM:SS` text. */
  function SecondsField(r: string): nat
    requires ClockShape(r)
  {
    Decimal.DigitsValue(r[|r| - 2..])
  }

  /** Minutes and seconds, each zero-padded to two digits; minutes past 99
      simply take more digits, and only a minutes count below 10 is padded
      with a leading zero. */
  function FormatClock(elapsed: nat): (r: string)
    ensures ClockShape(r) && |r| >= 5
    ensures SecondsField(r) < 60
    ensures ClockSeconds(r) == elapsed
    ensures |r| == 5 <==> elapsed < 6000
    ensures r[0] == '0' <==> elapsed < 600
  {
    var m := Decimal.NatToString(elapsed / 60);
    var sec := Decimal.NatToString(elapsed % 60);
    Decimal.PadKeepsValue(m);
    Decimal.PadKeepsValue(sec);
    Decimal.TwoDigitsBelowHundred(elapsed / 60);
    Decimal.TwoDigitsBelowHundred(elapsed % 60);
    var minutes := Decimal.PadStart2(m);
    var seconds := Decimal.PadStart2(sec);
    ClockFields(minutes, seconds);
    minutes + [':'] + seconds
  }

  /** A clock text put together from its two fields reads as those fields. */
  lemma ClockFields(minutes: string, seconds: string)
    requires |minutes| >= 2 && |seconds| == 2
    requires Decimal.AllDigits(minutes) && Decimal.AllDigits(seconds)
    ensures var r := minutes + [':'] + seconds;
      && ClockShape(r) && |r| == |minutes| + 3
      && SecondsField(r) == Decimal.DigitsValue(seconds)
      && ClockSeconds(r) == Decimal.DigitsValue(minutes) * 60 + Decimal.DigitsValue(seconds)
  {
    var r := minutes + [':'] + seconds;
    assert r[..|r| - 3] == minutes && r[|r| - 2..] == seconds;
  }

  /** The clock reads back as the elapsed time: two different counts of
      seconds never show the same text. */
  lemma ClockInjective(a: nat, b: nat)
    requires FormatClock(a) == FormatClock(b)
    ensures a == b
  {
    assert a == ClockSeconds(FormatClock(a));
  }

  /** The clock starts at `00:00`. */
  lemma ClockStartsAtZero()
    ensures FormatClock(0) == "00:00"
  {
    assert Decimal.NatToString(0) == "0";
  }
}
